=== FILE: README.md ===
# amp-redis: RESP decoder and request supervisor, modelled in Dafny

This project models two parts of the amphp Redis client.

- `RespParser` is the incremental decoder for version 2 of the Redis serialisation protocol (RESP).
  - `append` adds bytes to a buffer.
  - `tryParse` cuts one complete unit off its front: a tag byte, a CRLF-terminated line and, for bulk strings, a body.
  - `onRespParsed` assembles units into nested arrays. It hands each completed top-level reply to a callback.
  - `reset` forgets everything.
- `RemoteExecutor` is the request queue and reconnect supervisor.
  - `execute` queues a command and writes it to the live socket.
  - The `run` loop connects on the remembered database and replays the queue. It pairs each reply with the oldest queued request.
  - It reconnects after I/O failures and fails every queued request on any other failure.

Both parts are pure functions over immutable state. The model decodes and supervises as the code evidently intends. Where the code is wrong (see "## Findings"), the behaviour as written sits in separate members. The rest of the model does not use them.

- **Bytes.** A byte string is a `string`, one `char` per octet.
- **Decoder layers.**
  - Framing (`RespFraming.TryParse`) returns `Incomplete`, `Malformed` or `Extracted(unit, rest)`.
  - Assembly (`RespAssembly.OnUnit`) keeps the array under construction as an explicit frame, with a stack of suspended ancestor frames. It keeps the source's `payload + 1` count for a nested array.
  - The driver (`RespParser.Drain` / `Append`) records the callback as the sequence of values it receives. It records a `ParserException` as a `failed` flag.
- **Executor.** It is a state machine (`RemoteExecutor.Step`). Every point where the caller or the run loop resumes after a suspension is an event:
  - `Execute` up to its `await`;
  - `Connected`;
  - `Read(reply)`, where `None` is end of stream;
  - `IoFailure`, a `RedisException`;
  - `FatalFailure`, any other throwable, a failed connect included;
  - `ExecuteReturns`, when an `await` returns.

  Futures are a map from request ids to `Pending | Resolved | Failed`.

The central executor invariant is `RemoteExecutor.Inv`. It says:
- a future is pending exactly while its request is queued;
- queued ids increase;
- the live socket's unanswered writes are exactly the queued requests, in order;
- the socket is referenced exactly while something is pending.

In these details the model follows the code:
- A later `execute` after the fail-all path restarts the loop (`running` is reset to false, and `execute` calls `run` again).
- `quit` only closes the socket. The loop then reads end of stream and reconnects.
- A connector failure is outside the inner `try`, so it takes the fail-all path rather than a retry.
- A reply read while the queue is empty makes `SplQueue::shift` throw. That also takes the fail-all path.
- `select` without an argument casts the missing argument (`null`) to database 0.
- `RespPayload::unwrap` is not part of this model. Only a top-level error reply is turned into a failed future.

## Model

| member | source | states |
|---|---|---|
| Coercion.IntVal | lib/RespParser.php:52 | `(int)` of a string that starts with neither a sign nor a digit is 0; a negative result needs a leading `-` |
| Coercion.IntValOfDecimal | lib/RespParser.php:52 | `(int)` of a rendered integer followed by a byte that does not continue the digits (the CR of a length line) gives that integer back |
| Coercion.Lower | src/RemoteExecutor.php:47 | `strtolower` keeps the length and every byte that is not a capital; a capital becomes the lower-case letter 32 code points above it; no capital is left |
| Coercion.LowerIgnoresCase | src/RemoteExecutor.php:47 | two strings lower-case to the same string exactly when they differ only in the case of ASCII letters |
| Coercion.Strval | src/RemoteExecutor.php:45 | `strval` passes a string through unchanged and renders an integer so that `(int)` reads the integer back |
| Coercion.StrvalAll | src/RemoteExecutor.php:45 | `array_map(strval(...))` keeps the argument count and order: string arguments are unchanged and integer arguments read back under `(int)` as the integer given |
| RespFraming.FindCrlf | lib/RespParser.php:36 | the position found holds a CRLF and no CRLF starts earlier; none found means the buffer holds no CRLF |
| RespFraming.TryParse | lib/RespParser.php:30-93 | an extraction always leaves a strictly shorter buffer (corrected step: a bulk length below -1 is a fault) |
| RespFraming.ExtractedLeavesSuffix | lib/RespParser.php:74 | what stays buffered after an extraction is a proper suffix of the buffer |
| RespFraming.WaitsForCrlf | lib/RespParser.php:31-40 | without a CRLF in the buffer the step is incomplete: nothing consumed, no error |
| RespFraming.UnknownTagFails | lib/RespParser.php:68-71 | once a CRLF is buffered, a tag outside `+ - : $ *` is a framing fault |
| RespFraming.LineUnitConsumption | lib/RespParser.php:43-49 | a line unit removes exactly `pos + 2` bytes and its payload is the text between tag and CRLF |
| RespFraming.BulkConsumption | lib/RespParser.php:51-66 | `$-1` removes only its line and is null; a body shorter than `pos + len + 4` bytes waits; otherwise exactly `pos + len + 4` bytes go and the payload is the `len` bytes after the length line |
| RespFraming.FindCrlfExtends | lib/RespParser.php:36 | appending bytes does not move the first CRLF once there is one |
| RespFraming.TryParseExtends | lib/RespParser.php:30-74 | appending bytes to a buffer whose step is decided gives the same unit with the new bytes behind the old rest, or the same fault |
| RespFraming.LineFraming | lib/RespParser.php:43-49 | a CR-free line unit followed by anything frames as exactly its unit, leaving the rest |
| RespFraming.BulkFraming | lib/RespParser.php:51-66 | a bulk string followed by anything frames as exactly that string, leaving the rest |
| RespFraming.NullBulkFraming | lib/RespParser.php:54-56 | `$-1` followed by anything frames as null, leaving the rest |
| RespFraming.PhpSubstr | lib/RespParser.php:62 | PHP 8 `substr` never returns more bytes than it is given; an in-range start and length give exactly that slice; a start at or past the end gives ""; a negative start without a length gives that many bytes from the end; a negative length leaves that many bytes off the end, or gives "" |
| RespFraming.TryParseAsWritten | lib/RespParser.php:51-74 | the step as written agrees with the corrected step except on bulk lengths below -1, and faults only on unknown tags |
| RespFraming.AsWrittenBulkMakesNoProgress | lib/RespParser.php:52-63 | as written, `$-7\r\n` is extracted as an empty string and leaves the buffer exactly as it was |
| RespFraming.AsWrittenBulkEmitsEmpty | lib/RespParser.php:52-74 | as written, `$-2\r\n` is consumed whole and emitted as an empty string |
| RespFraming.AsWrittenBulkMisframes | lib/RespParser.php:52-74 | as written, `$-3\r\n+OK\r\n` emits "+O", cut out of the next reply, and leaves `\n+OK\r\n` buffered |
| RespFraming.CorrectedBulkRejectsNegativeLength | lib/RespParser.php:52-63 | corrected, the same input is a framing fault |
| RespAssembly.Settle | lib/RespParser.php:111-124 | after a placement at most one value is emitted, exactly when the builder becomes idle; a count above one is just decremented; a closing outermost array is emitted |
| RespAssembly.OnUnit | lib/RespParser.php:95-137 | one unit emits at most one value, and inside an array it emits only when the builder becomes idle |
| RespAssembly.SettleWellFormed | lib/RespParser.php:111-124 | settling keeps every open array expecting at least one element and adds no ancestor |
| RespAssembly.OnUnitWellFormed | lib/RespParser.php:96-109 | a unit keeps every open array expecting at least one element |
| RespAssembly.FeedUnitsWellFormed | lib/RespParser.php:95-137 | over any unit sequence the builder stays well formed and emits at most one value per unit |
| RespAssembly.OneSlot | lib/RespParser.php:98-124 | a value of any depth arriving inside an open array has the effect of placing it as one child (the `payload + 1` count) |
| RespAssembly.AllSlots | lib/RespParser.php:108-124 | `k` values arriving into a frame expecting at least `k` take `k` consecutive slots; only the last may close it |
| RespAssembly.NegativeHeaderIsNull | lib/RespParser.php:104-132 | a negative array count acts as a null scalar wherever it arrives: emitted as `null` at the top level, placed as a `null` element inside an array |
| RespAssembly.ValueFromIdle | lib/RespParser.php:125-135 | outside any array, a value's units emit exactly that value and leave the builder idle (`[]` for `*0`, a nested array through its header) |
| RespAssembly.PipelinedFromIdle | lib/RespParser.php:111-115 | back-to-back replies are emitted one each, in arrival order, and the builder ends idle |
| RespAssembly.NestedCloseResumesParent | lib/RespParser.php:118-123 | a closing nested array resumes its parent with the parent's suspended count, then decrements it once |
| RespAssembly.EmitOnlyWhenOutermostCloses | lib/RespParser.php:111-115 | while an array is open, a unit emits a value exactly when it closes the outermost array, and the builder is then idle |
| RespParser.ResetDiscardsState | lib/RespParser.php:19-22 | after `reset`, the same input gives the same callbacks, state and failure whatever the parser held before, as on a new parser |
| RespParser.Drain | lib/RespParser.php:27-74 | the `while (tryParse())` loop stops only at an incomplete step or at a malformed unit at the front, and never grows the buffer |
| RespParser.DrainKeepsWellFormed | lib/RespParser.php:95-137 | draining keeps every open array expecting at least one element |
| RespParser.DrainLeavesSuffix | lib/RespParser.php:74 | what stays buffered after draining is a suffix of the buffer |
| RespParser.Append | lib/RespParser.php:24-28 | `append` returns only when no complete unit is buffered or a malformed one is at the front; it keeps at most the old buffer and the new bytes |
| RespParser.IncompleteKeepsEverything | lib/RespParser.php:30-60 | when the buffered bytes hold no complete unit, `append` emits nothing and keeps every byte |
| RespParser.AppendSplit | lib/RespParser.php:24-28 | two `append` calls emit what one call with the concatenation emits, in the same order, and end in the same state, failing alike |
| RespParser.FaultPersists | lib/RespParser.php:68-71 | a malformed unit at the front still fails, consuming nothing, after more bytes arrive |
| RespParser.FragmentationInvariance | lib/RespParser.php:24-28 | however the input is cut into fragments, feeding them one by one equals feeding their concatenation |
| RespParser.EncodeTokenizes | lib/RespParser.php:42-66 | the canonical wire form of a reply frames as exactly that reply's units |
| RespParser.RoundTrip | lib/RespParser.php:24-137 | a fresh parser fed the wire form of a reply emits exactly that reply, once, and is fresh again |
| RespParser.Pipelined | lib/RespParser.php:24-137 | a fresh parser fed several replies back to back emits each of them, in order, and is fresh again |
| RespParser.ResetForgetsPartialReply | lib/RespParser.php:19-22 | after `reset`, whatever was buffered before, a complete reply is decoded exactly |
| ParserScenarios.PieceFraming | lib/RespParser.php:42-66 | each well-formed wire piece frames as its unit |
| ParserScenarios.FeedPieces | lib/RespParser.php:24-28 | a fresh parser fed well-framed pieces emits what assembly of their units emits |
| ParserScenarios.Replies | lib/RespParser.php:24-137 | pieces whose units are those of the replies `vs` decode to `vs`, in order |
| ParserScenarios.BulkString | test/ParserTest.php:11-19 | `$3\r\nfoo\r\n` emits "foo" |
| ParserScenarios.IntegerReply | test/ParserTest.php:24-32 | `:42\r\n` emits 42 |
| ParserScenarios.SimpleString | test/ParserTest.php:37-45 | `+foo\r\n` emits "foo" |
| ParserScenarios.ErrorReply | test/ParserTest.php:50-58 | `-ERR something went wrong :(\r\n` emits an error value, not a string |
| ParserScenarios.StringNull | test/ParserTest.php:63-71 | `$-1\r\n` emits null |
| ParserScenarios.PipelinedStrings | test/ParserTest.php:76-84 | two simple strings back to back emit two values, in order |
| ParserScenarios.LatencyFirst | test/ParserTest.php:94-95 | `$3\r` alone emits nothing and stays buffered |
| ParserScenarios.LatencySecond | test/ParserTest.php:96-97 | `\nfoo\r` more still emits nothing and stays buffered |
| ParserScenarios.LatencyThird | test/ParserTest.php:98-99 | the final `\n` emits "foo" and empties the buffer |
| ParserScenarios.Latency | test/ParserTest.php:89-100 | the three fragments emit nothing, nothing, then "foo" |
| ParserScenarios.ArrayNull | test/ParserTest.php:105-113 | `*-1\r\n` emits null |
| ParserScenarios.ArrayEmpty | test/ParserTest.php:118-126 | `*0\r\n` emits `[]` |
| ParserScenarios.ArraySingle | test/ParserTest.php:131-139 | `*1` then a simple string emits a one-element array, for any CR-free string |
| ParserScenarios.ArrayMultiple | test/ParserTest.php:144-152 | `*3` then a simple string, an integer and a bulk string emits the three-element array, for any such values |
| ParserScenarios.ArrayComplex | test/ParserTest.php:157-165 | `*3 *1 +a :n *2 +b $c` emits `[[a], n, [b, c]]`, for any such values |
| ParserScenarios.ArrayInnerNull | test/ParserTest.php:170-178 | `*1\r\n*-1\r\n` emits `[null]` |
| ParserScenarios.ArrayPipeline | test/ParserTest.php:184-192 | two one-element arrays back to back emit two arrays, in order |
| ParserScenarios.UnknownType | test/ParserTest.php:198-202 | `3$\r\nfoo\r\n` fails, emits nothing and keeps every byte |
| RemoteExecutor.FailQueued | src/RemoteExecutor.php:122-126 | the fail-all loop errors exactly the queued futures with the connection error, leaves every other future as it was, and adds or removes none |
| ExecutorInvariant.FailQueuedFailsAll | src/RemoteExecutor.php:122-126 | every queued future ends up failed |
| ExecutorInvariant.FailQueuedSpares | src/RemoteExecutor.php:122-126 | a future that is not queued is untouched by the fail-all loop |
| RemoteExecutor.OnExecute | src/RemoteExecutor.php:39-77 | `execute` up to its `await` appends one request at the tail with the next id and a new pending future; earlier requests and other futures are unchanged; a failed write drops the socket; a good write appends the arguments to the socket's writes and references it |
| RemoteExecutor.OnConnected | src/RemoteExecutor.php:91-98 | a new connection uses the remembered database; every queued request is written once, in queue order, before any reply is read; the socket is referenced exactly when something was written; queue and futures are unchanged |
| RemoteExecutor.Reconnect | src/RemoteExecutor.php:113-118 | after an I/O failure the loop runs on without a socket, and queue, futures and database are kept |
| RemoteExecutor.FailAll | src/RemoteExecutor.php:119-128 | the outer `catch` errors every queued future with the failure's message, keeps every other future, empties the queue and stops the loop |
| RemoteExecutor.OnRead | src/RemoteExecutor.php:100-111 | a reply shifts the head and completes its future alone; on a live socket it counts one more answer and unreferences when the queue empties; an empty queue makes the shift throw into the fail-all |
| RemoteExecutor.OnReturn | src/RemoteExecutor.php:49-59 | an `await` returning marks its call returned and leaves queue, loop and other futures alone; the database changes only for a successful `select`, and the socket is closed only for `quit` |
| RemoteExecutor.Step | src/RemoteExecutor.php:39-133 | a stopped executor accepts only new calls and returning calls; replies and I/O failures arrive only while reading, and a connection only while connecting; no future is ever forgotten and no id is reused |
| RemoteExecutor.Inv | src/RemoteExecutor.php:64-128 | under the invariant, a stopped executor has no pending future, every queued request's future is pending, and a live socket has one unanswered write per queued request |
| ExecutorInvariant.InitInv | src/RemoteExecutor.php:22-28 | a new executor satisfies the invariant |
| ExecutorInvariant.ExecutePreservesInv | src/RemoteExecutor.php:39-78 | `execute` up to its `await` keeps the invariant, with or without a failed write |
| ExecutorInvariant.ConnectedPreservesInv | src/RemoteExecutor.php:91-98 | connecting and replaying keeps the invariant |
| ExecutorInvariant.ReconnectPreservesInv | src/RemoteExecutor.php:113-117 | dropping the socket to reconnect keeps the invariant |
| ExecutorInvariant.FailAllPreservesInv | src/RemoteExecutor.php:119-128 | the fail-all path keeps the invariant |
| ExecutorInvariant.ReadPreservesInv | src/RemoteExecutor.php:100-111 | handling a reply keeps the invariant |
| ExecutorInvariant.ReturnPreservesInv | src/RemoteExecutor.php:49-59 | an `await` returning keeps the invariant |
| ExecutorInvariant.StepPreservesInv | src/RemoteExecutor.php:39-133 | every possible event keeps the invariant |
| ExecutorInvariant.RunPreservesInv | src/RemoteExecutor.php:80-133 | every run of events keeps the invariant |
| ExecutorInvariant.Reachable | src/RemoteExecutor.php:22-133 | every state reachable from a new executor satisfies the invariant |
| ExecutorProperties.EnqueueAppends | src/RemoteExecutor.php:64-77 | `execute` appends exactly one request with a fresh id and a pending future at the tail; earlier entries and calls are unchanged; a failed write drops the socket, not the request; a good one is written and referenced |
| ExecutorProperties.ExecuteStartsLoopOnlyWhenStopped | src/RemoteExecutor.php:41-43 | `execute` starts the loop only when it is not running, and it runs afterwards |
| ExecutorProperties.ReadResolvesOldest | src/RemoteExecutor.php:100-111 | a reply settles the oldest queued request and only it, as a value or, for an error reply, as a server error; it answers the oldest unanswered write on the connection; the socket is unreferenced when the queue empties |
| ExecutorProperties.ReadWithEmptyQueueStops | src/RemoteExecutor.php:102 | a reply with nothing queued stops the loop and settles nothing |
| ExecutorProperties.FailureReconnects | src/RemoteExecutor.php:113-117 | end of stream and I/O failures drop the socket and reconnect; queue, futures and database are unchanged |
| ExecutorProperties.FailAllErrorsEveryPending | src/RemoteExecutor.php:119-128 | any other failure errors every pending future with its message, empties the queue, stops the loop, and leaves settled futures alone |
| ExecutorProperties.SettledIsFinal | src/RemoteExecutor.php:107-111 | a settled future keeps its outcome through any event |
| ExecutorProperties.SettledStaysSettled | src/RemoteExecutor.php:88-130 | a settled future keeps its outcome through any run of events |
| ExecutorProperties.RepliesResolveInOrder | src/RemoteExecutor.php:100-111 | replies read one after another settle the queued requests in queue order, the i-th reply the i-th request |
| ExecutorProperties.SelectTracksDatabase | src/RemoteExecutor.php:57-59 | a successful `select` remembers its cast argument; a failed one, or any other command, leaves the database alone |
| ExecutorProperties.DatabaseChangesOnlyOnSelect | src/RemoteExecutor.php:57-59 | the remembered database changes only when a successful `select` returns |
| ExecutorProperties.SelectOfNumber | src/RemoteExecutor.php:45-58 | `select` with an integer argument remembers exactly that integer |
| ExecutorProperties.CommandIgnoresCase | src/RemoteExecutor.php:47 | the first argument names a command exactly when it equals the command's name up to the case of its letters |
| ExecutorProperties.MixedCaseSelect | src/RemoteExecutor.php:47 | `SELECT` and `SeLeCt` are both the `select` command, whatever arguments follow |
| ExecutorProperties.QuitClosesSocket | src/RemoteExecutor.php:49-55 | a returning `quit` closes the socket whatever its outcome, and changes nothing else in the loop |
| ExecutorAsWritten.OnReadAsWritten | src/RemoteExecutor.php:100-112 | as written, a reply on a live socket or with nothing queued is handled as corrected; with the socket dropped the loop stops with nothing queued: a reply that empties the queue leaves the shifted future untouched, and otherwise the head is completed and every request behind it fails with the error of `read()` on `null` |
| ExecutorAsWritten.StepAsWritten | src/RemoteExecutor.php:88-133 | with the replay kept atomic, as in `OnConnected`, the executor as written takes the same steps as the corrected one except on a reply while the socket is dropped; replies arrive only while reading; no future is forgotten and no id reused |
| ExecutorAsWritten.AsWrittenFailsDroppedRequests | src/RemoteExecutor.php:100-112 | as written, a reply arriving after `execute` dropped the socket settles the head, then fails every request behind it and stops the loop |
| ExecutorAsWritten.AsWrittenOrphansHead | src/RemoteExecutor.php:102-105 | as written, when that reply empties the queue, the shifted request stays pending with nothing queued, and the invariant is broken |
| ExecutorAsWritten.DroppedSocketIsReachable | src/RemoteExecutor.php:71-75 | the state with the socket dropped under a reading loop is reachable from a new executor |
| ExecutorAsWritten.OrphanIsNeverSettled | src/RemoteExecutor.php:119-128 | a pending future that is not queued is not settled by any event |
| ExecutorAsWritten.OrphanWaitsForever | src/RemoteExecutor.php:88-130 | such a future stays pending through any run of events, so its `execute` never returns |
| ExecutorAsWritten.WriteNext | src/RemoteExecutor.php:95-98 | one `foreach` round references the socket and appends the next queued request's arguments to its writes, leaving queue, futures, loop and database unchanged; it ends exactly when the cursor reaches the end of the live queue or the socket is gone |
| ExecutorAsWritten.ReplayWithoutInterleavingIsAtomic | src/RemoteExecutor.php:91-98 | with no `execute` during the replay, the replay as written ends in the state the atomic replay of the model gives |
| ExecutorAsWritten.ReplayWritesTwice | src/RemoteExecutor.php:91-98 | as written, an `execute` during a suspended replay write is written on the new socket and then again by the `foreach`, so a reading loop has three unanswered writes for two queued requests, and the invariant is broken |
| ExecutorAsWritten.ReplayMisattributesReply | src/RemoteExecutor.php:95-111 | with `INCR n` queued next, the third reply, which answers the second `GET k` write, completes the `INCR n` call |
| ExecutorAsWritten.CorrectedReadReconnects | src/RemoteExecutor.php:100-117 | corrected, the same reply settles the head and reconnects, keeping the rest queued for replay and the invariant intact |

## Left out

- RespFraming.TryParse follows the corrected bulk branch: a length below -1 is a fault, where the source mis-frames the buffer: it emits a `substr` of the bytes that follow (`$-2\r\n` gives an empty string, `$-3\r\n+OK\r\n` gives "+O" and leaves a stray LF), and it loops forever when `$remove` is 0, as for `$-7\r\n`, or so negative that `substr($buffer, $remove)` keeps the whole buffer (see "## Findings"). `RespParser.Drain`, `Append` and every parser property are built on it. The code as written is `RespFraming.TryParseAsWritten`.
- RemoteExecutor.OnRead follows the corrected loop: with the socket dropped by `execute`, a reply settles the head and the loop reconnects, where the source fails the queue or orphans the head (see "## Findings"). `RemoteExecutor.Step`, `Run`, the invariant proofs and every executor property are built on it. The code as written is `ExecutorAsWritten.StepAsWritten`.
- RemoteExecutor.OnConnected writes the whole replay as one event, so no `execute` runs between its writes; ExecutorInvariant.ConnectedPreservesInv holds for this atomic replay only. In the source a replay write can suspend, and an `execute` running then is written twice (see "## Findings"). That interleaving is modelled only by `ExecutorAsWritten.WriteNext` and `ExecuteDuringReplay`.
- Coercion.Arg has no float variant: `execute` also takes floats, and PHP's float-to-string rendering is not modelled, so Coercion.StrvalAll covers string and integer arguments only.
- Coercion.IntVal reads integer syntax only. PHP's `(int)` also skips leading whitespace, reads the fraction and exponent forms (`(int) "1e3"` is 1000, `(int) "1.9e1"` is 19) and saturates at 64 bits. None of these is modelled. The decoder only sees CR-terminated server lines, but `SelectedDatabase` and ExecutorProperties.SelectTracksDatabase differ from PHP for such a `select` argument.
- The two bytes after a bulk body are skipped without checking, as in the source. No property is claimed about them.
- Exception classes are one abstract fault or failure each. The test expects `QueryException` while the parser builds a `RedisException`.
- `RespPayload::unwrap` and the `Resp` tag constants are not part of this model. The tags are taken to be `+ - : $ *`.
- The callback is a recorded sequence. A callback that throws is not modelled.
- The Revolt event loop, `DeferredFuture`, `RespSocket` and `RedisConnector` are abstract events and flags:
  - a socket write that fails is the `writeFails` flag of `Execute`;
  - a failing connect is `FatalFailure`.
- A failed write during the replay after a connect is not a separate event. It is `Connected` followed by `IoFailure`, which reaches the same state.
- The executor writes commands through `RespSocket`, which is not part of this model. `written` records argument lists, not their bytes.
- `__destruct` and the optional `$responseTransform` of `execute` are not modelled. The transform is a caller closure applied to the result.
- Concurrency between callers: each `execute` up to its `await` is one atomic event.
- `src/RedisMap.php` wraps `execute` and is not modelled. The tests that need a live server are not modelled either.

## Findings

| source | as written | input that shows it | evidently intended | confidence | as-written member | corrected member |
|---|---|---|---|---|---|---|
| lib/RespParser.php:52-63 | a bulk length below -1 passes both checks; `$remove = $pos + $length + 4` can be zero, so `tryParse` returns true without consuming anything | `$-7\r\n`: the payload is `""`, `$remove` is 0, and `append` loops forever | reject a length below -1 as a protocol error | not executed | RespFraming.AsWrittenBulkMakesNoProgress | RespFraming.CorrectedBulkRejectsNegativeLength |
| src/RemoteExecutor.php:95-98 | the replay `foreach` walks the live `SplQueue` while `$this->socket` is already the new connection. A request executed while a replay `write` is suspended is written by `execute` and again by the `foreach` | `PING` queued while connecting; its replay write suspends (this needs `RespSocket::write` to suspend, and `RespSocket` is not part of this model); `GET k` is executed then; the socket carries `PING`, `GET k`, `GET k` for two queued requests. With `INCR n` queued next, the reply to the second `GET k` completes `INCR n` | no request is written on the new socket outside the replay until the replay has ended (for instance by assigning `$this->socket` only after the `foreach`), so the writes match the queue in order and each reply pairs with its request | not executed | ExecutorAsWritten.ReplayMisattributesReply | ExecutorInvariant.ConnectedPreservesInv |
| src/RemoteExecutor.php:74 | `$this->socket = null` after a failed write also clears the loop's `$socket`, which is a reference to it. The loop then calls `read()` or `unreference()` on `null`, an `Error` that takes the fail-all path | `PING` written and awaiting its reply; `GET k` queued with its write failing; `PING`'s reply arrives. `PING` settles, then `GET k` fails with a connection error, and the loop stops. If the reply empties the queue instead, the shifted request is never settled | the dropped socket makes the loop reconnect and replay the still-queued requests | not executed | ExecutorAsWritten.AsWrittenFailsDroppedRequests | ExecutorAsWritten.CorrectedReadReconnects |

=== FILE: coercion.dfy ===
/**
 * The few PHP value coercions the decoder and the executor rely on:
 * `intval` / `(int)` on a string, `strval` on an int, and `strtolower`.
 * Strings are sequences of octets; one `char` stands for one octet.
 */
module Coercion {

  predicate IsDigit(c: char) {
    '0' <= c <= '9'
  }

  function DigitValue(c: char): nat
    requires IsDigit(c)
  {
    c as int - '0' as int
  }

  function DigitChar(d: nat): (c: char)
    requires d < 10
    ensures IsDigit(c) && DigitValue(c) == d
  {
    ('0' as int + d) as char
  }

  predicate AllDigits(s: string) {
    forall i :: 0 <= i < |s| ==> IsDigit(s[i])
  }

  /** Decimal digits of `n`, most significant first, without leading zeros. */
  function Digits(n: nat): (r: string)
    ensures |r| >= 1 && AllDigits(r)
  {
    if n < 10 then [DigitChar(n)] else Digits(n / 10) + [DigitChar(n % 10)]
  }

  /** PHP `strval` of an integer. */
  function Decimal(n: int): string {
    if n < 0 then "-" + Digits(-n) else Digits(n)
  }

  /**
   * Scans the decimal digits at the front of `s` left to right, folding
   * each into `acc`, and stops at the first byte that is not a digit.
   */
  function ScanDigits(s: string, acc: nat): nat
    decreases |s|
  {
    if |s| > 0 && IsDigit(s[0]) then ScanDigits(s[1..], acc * 10 + DigitValue(s[0])) else acc
  }

  /**
   * PHP `intval($s)` / `(int) $s` on integer syntax: an optional sign
   * followed by the longest run of decimal digits, the value of that run;
   * a string without a leading sign or digit gives 0. The fraction and
   * exponent forms PHP also accepts (`(int) "1e3"` is 1000) are not
   * modelled: the scan stops at the `.` or the `e`.
   */
  function IntVal(s: string): (r: int)
    ensures (s == [] || !(IsDigit(s[0]) || s[0] == '-' || s[0] == '+')) ==> r == 0
    ensures r < 0 ==> |s| > 0 && s[0] == '-'
  {
    if |s| > 0 && s[0] == '-' then -(ScanDigits(s[1..], 0) as int)
    else if |s| > 0 && s[0] == '+' then ScanDigits(s[1..], 0)
    else ScanDigits(s, 0)
  }

  /** A byte that is not a digit ends the scan. */
  lemma {:induction false} ScanStops(a: string, t: string, acc: nat)
    requires AllDigits(a)
    requires t == [] || !IsDigit(t[0])
    ensures ScanDigits(a + t, acc) == ScanDigits(a, acc)
    decreases |a|
  {
    if a == [] {
      assert a + t == t;
    } else {
      assert (a + t)[1..] == a[1..] + t;
      ScanStops(a[1..], t, acc * 10 + DigitValue(a[0]));
    }
  }

  /** One more trailing digit shifts the scanned value one decimal place. */
  lemma {:induction false} ScanSnoc(a: string, c: char, acc: nat)
    requires AllDigits(a) && IsDigit(c)
    ensures ScanDigits(a + [c], acc) == ScanDigits(a, acc) * 10 + DigitValue(c)
    decreases |a|
  {
    if a == [] {
      assert a + [c] == [c];
      assert [c][1..] == [];
    } else {
      assert (a + [c])[1..] == a[1..] + [c];
      ScanSnoc(a[1..], c, acc * 10 + DigitValue(a[0]));
    }
  }

  /** Scanning the rendered digits of `n` gives back `n`. */
  lemma {:induction false} ScanDigitsOfDigits(n: nat)
    ensures ScanDigits(Digits(n), 0) == n
  {
    if n < 10 {
      assert [DigitChar(n)][1..] == [];
    } else {
      ScanDigitsOfDigits(n / 10);
      ScanSnoc(Digits(n / 10), DigitChar(n % 10), 0);
    }
  }

  lemma LeadingDigits(n: nat, t: string)
    requires t == [] || !IsDigit(t[0])
    ensures ScanDigits(Digits(n) + t, 0) == n
  {
    ScanStops(Digits(n), t, 0);
    ScanDigitsOfDigits(n);
  }

  /**
   * Reading back a rendered integer: `intval(strval(n) . t) == n`
   * whenever `t` does not continue the digit run, e.g. the CR that
   * ends a RESP length line.
   */
  lemma IntValOfDecimal(n: int, t: string)
    requires t == [] || !IsDigit(t[0])
    ensures IntVal(Decimal(n) + t) == n
  {
    var s := Decimal(n) + t;
    if n < 0 {
      assert s == "-" + (Digits(-n) + t);
      assert s[1..] == Digits(-n) + t;
      LeadingDigits(-n, t);
    } else {
      assert s == Digits(n) + t;
      assert IsDigit(s[0]);
      LeadingDigits(n, t);
    }
  }

  predicate IsUpper(c: char) {
    'A' <= c <= 'Z'
  }

  function LowerChar(c: char): char {
    if IsUpper(c) then (c as int + 32) as char else c
  }

  /**
   * PHP 8 `strtolower`, which maps ASCII letters only: every capital
   * becomes the lower-case letter 32 code points above it, every other
   * byte stays, and no capital is left.
   */
  function Lower(s: string): (r: string)
    ensures |r| == |s|
    ensures forall i :: 0 <= i < |s| && !IsUpper(s[i]) ==> r[i] == s[i]
    ensures forall i :: 0 <= i < |s| && IsUpper(s[i]) ==> 'a' <= r[i] <= 'z' && r[i] as int - s[i] as int == 32
    ensures forall i :: 0 <= i < |r| ==> !IsUpper(r[i])
  {
    seq(|s|, i requires 0 <= i < |s| => LowerChar(s[i]))
  }

  /** Two bytes are the same letter in either case, or the same byte. */
  predicate SameIgnoringCase(a: char, b: char) {
    a == b
    || (IsUpper(a) && b as int == a as int + 32)
    || (IsUpper(b) && a as int == b as int + 32)
  }

  /** Two strings that differ at most in the case of ASCII letters. */
  predicate EqualIgnoringCase(a: string, b: string) {
    |a| == |b| && forall i :: 0 <= i < |a| ==> SameIgnoringCase(a[i], b[i])
  }

  /** `strtolower` identifies exactly the strings that differ only in letter case. */
  lemma LowerIgnoresCase(a: string, b: string)
    ensures Lower(a) == Lower(b) <==> EqualIgnoringCase(a, b)
  {
    if Lower(a) == Lower(b) {
      forall i | 0 <= i < |a|
        ensures SameIgnoringCase(a[i], b[i])
      {
        assert Lower(a)[i] == Lower(b)[i];
      }
    }
    if EqualIgnoringCase(a, b) {
      forall i | 0 <= i < |a|
        ensures Lower(a)[i] == Lower(b)[i]
      {
        assert SameIgnoringCase(a[i], b[i]);
      }
    }
  }

  /** A query argument as the caller passes it: a string or an integer. */
  datatype Arg = Text(text: string) | Number(number: int)

  /**
   * PHP `strval` applied to one query argument: a string is passed on as
   * it is, and an integer is rendered so that `(int)` reads it back.
   */
  function Strval(a: Arg): (r: string)
    ensures a.Text? ==> r == a.text
    ensures a.Number? ==> IntVal(r) == a.number
  {
    match a
    case Text(s) => s
    case Number(n) =>
      IntValOfDecimal(n, []);
      assert Decimal(n) + [] == Decimal(n);
      Decimal(n)
  }

  /**
   * `array_map(strval(...), $query)`: one string per argument, in order;
   * string arguments pass through unchanged and integer arguments read
   * back under `(int)` as the integer given.
   */
  function StrvalAll(query: seq<Arg>): (r: seq<string>)
    ensures |r| == |query|
    ensures forall i :: 0 <= i < |query| && query[i].Text? ==> r[i] == query[i].text
    ensures forall i :: 0 <= i < |query| && query[i].Number? ==> IntVal(r[i]) == query[i].number
  {
    seq(|query|, i requires 0 <= i < |query| => Strval(query[i]))
  }
}

=== FILE: executor_as_written.dfy ===
/**
 * The reply handling of the run loop as the source writes it, once
 * `enqueue` has cleared the shared socket after a failed write
 * (src/RemoteExecutor.php:71-75). The loop's `$socket` is a reference to
 * the same property, so after the pending `read()` delivers a reply the
 * loop calls `unreference()` (when the shift emptied the queue) or its
 * next `read()` on `null`. That `Error` is not a `RedisException`, so it
 * reaches the fail-all `catch` instead of the reconnect; when it comes
 * from `unreference()`, the shifted request is neither queued nor
 * completed and its caller waits forever.
 */
module ExecutorAsWritten {
  import opened Options
  import opened RespValue
  import opened Coercion
  import opened RemoteExecutor
  import opened ExecutorInvariant
  import opened ExecutorProperties

  /**
   * A reply as src/RemoteExecutor.php:100-112 handles it. On a live socket,
   * or with nothing queued, this is the corrected `OnRead`. With the socket
   * dropped, the loop stops: if the shift emptied the queue, the shifted
   * future stays as it was; otherwise the head is completed and every
   * request behind it fails with the error of `read()` on `null`.
   */
  function OnReadAsWritten(s: Executor, v: Value): (r: Executor)
    ensures s.socket.Some? || s.queue == [] ==> r == OnRead(s, v)
    ensures s.socket.None? && s.queue != [] ==>
              && r.queue == [] && !Running(r) && r.socket.None?
              && r.calls.Keys == s.calls.Keys
              && r.database == s.database && r.nextId == s.nextId
    ensures s.socket.None? && |s.queue| == 1 ==> r.calls == s.calls
    ensures s.socket.None? && |s.queue| > 1 && s.queue[0].id in s.calls && s.queue[0].id !in IdsOf(s.queue[1..]) ==>
              r.calls[s.queue[0].id] == s.calls[s.queue[0].id].(outcome := Unwrap(v))
    ensures s.socket.None? && |s.queue| > 1 ==>
              forall i :: 1 <= i < |s.queue| && s.queue[i].id in s.calls ==>
                r.calls[s.queue[i].id].outcome == Failed(ConnectionError("Call to a member function read() on null"))
  {
    if s.queue == [] then FailAll(s, "Can't shift from an empty datastructure")
    else if s.socket.Some? then OnRead(s, v)
    else if |s.queue| == 1 then
      FailAll(s.(queue := []), "Call to a member function unreference() on null")
    else
      FailAll(s.(queue := s.queue[1..], calls := Complete(s.calls, s.queue[0].id, Unwrap(v))),
              "Call to a member function read() on null")
  }

  /**
   * The executor as written, with the replay kept atomic as in
   * `OnConnected`. It differs from `Step` only on a reply that arrives
   * while the socket is dropped; the interleaved replay is modelled by
   * `WriteNext` and `ExecuteDuringReplay`.
   */
  function StepAsWritten(s: Executor, e: Event): (r: Option<Executor>)
    ensures s.socket.Some? || !(e.Read? && e.reply.Some?) ==> r == Step(s, e)
    ensures e.Read? ==> (r.Some? <==> s.loop.Reading?)
    ensures r.Some? ==> s.calls.Keys <= r.value.calls.Keys && s.nextId <= r.value.nextId
  {
    if e.Read? && e.reply.Some? && s.loop.Reading? then Some(OnReadAsWritten(s, e.reply.value))
    else Step(s, e)
  }

  function RunAsWritten(s: Executor, es: seq<Event>): Option<Executor>
    decreases |es|
  {
    if es == [] then Some(s)
    else match StepAsWritten(s, es[0])
      case None => None
      case Some(t) => RunAsWritten(t, es[1..])
  }

  /**
   * As written, the oldest request's reply arriving after a later
   * request's write failed completes the oldest request and then fails
   * every request behind it with a connection error, where they should
   * have been replayed on a new connection; the loop stops.
   */
  lemma AsWrittenFailsDroppedRequests(s: Executor, v: Value)
    requires Inv(s) && s.loop.Reading? && s.socket.None? && |s.queue| >= 2
    ensures var t := StepAsWritten(s, Read(Some(v))).value;
            && s.queue[0].id in t.calls
            && t.calls[s.queue[0].id].outcome == Unwrap(v)
            && (forall i :: 1 <= i < |s.queue| ==>
                  s.queue[i].id in t.calls
                  && t.calls[s.queue[i].id].outcome == Failed(ConnectionError("Call to a member function read() on null")))
            && t.queue == [] && !Running(t)
  {
    var head := s.queue[0].id;
    var tail := s.queue[1..];
    assert head !in IdsOf(tail) by {
      forall i | 0 <= i < |tail|
        ensures IdsOf(tail)[i] != head
      {
        assert tail[i] == s.queue[i + 1];
      }
    }
  }

  /**
   * With only that request queued, its own reply makes the loop call
   * `unreference()` on `null` after the shift: the request is neither
   * queued nor settled, and the executor no longer satisfies `Inv`.
   */
  lemma AsWrittenOrphansHead(s: Executor, v: Value)
    requires Inv(s) && s.loop.Reading? && s.socket.None? && |s.queue| == 1
    ensures var t := StepAsWritten(s, Read(Some(v))).value;
            && s.queue[0].id in t.calls
            && t.calls[s.queue[0].id].outcome.Pending?
            && t.queue == [] && !Running(t)
            && !Inv(t)
  {
    var t := StepAsWritten(s, Read(Some(v))).value;
    var id := s.queue[0].id;
    assert id in IdsOf(s.queue);
    assert IdsOf(t.queue) == [];
  }

  /**
   * The state both lemmas start from is reachable: `PING` is written on
   * a connection, then `GET k` is queued while its write fails.
   */
  lemma DroppedSocketIsReachable()
    ensures var s := Run(Init(0), [Execute([Text("PING")], false), Connected, Execute([Text("GET"), Text("k")], true)]);
            && s.Some? && Inv(s.value) && s.value.loop.Reading? && s.value.socket.None?
            && |s.value.queue| == 2
  {
    var es := [Execute([Text("PING")], false), Connected, Execute([Text("GET"), Text("k")], true)];
    var s1 := OnExecute(Init(0), [Text("PING")], false);
    var s2 := OnConnected(s1);
    var s3 := OnExecute(s2, [Text("GET"), Text("k")], true);
    assert Run(Init(0), es) == Some(s3) by {
      assert es[1..][1..][1..] == [];
    }
    Reachable(0, es);
  }

  /** A pending future that is not queued: nothing references its deferred any more. */
  predicate Orphan(s: Executor, id: RequestId) {
    id in s.calls && s.calls[id].outcome.Pending? && id !in IdsOf(s.queue) && id < s.nextId
  }

  lemma OrphanSurvivesExecute(s: Executor, query: seq<Arg>, writeFails: bool, id: RequestId)
    requires Orphan(s, id)
    ensures Orphan(OnExecute(s, query, writeFails), id)
  {
    IdsOfSnoc(s.queue, Request(s.nextId, StrvalAll(query)));
  }

  lemma OrphanSurvivesRead(s: Executor, v: Value, id: RequestId)
    requires Orphan(s, id)
    ensures Orphan(OnReadAsWritten(s, v), id)
  {
    if s.queue != [] {
      var head := s.queue[0].id;
      assert head == IdsOf(s.queue)[0];
      IdsOfTail(s.queue);
      assert id != head && id !in IdsOf(s.queue[1..]);
      if s.socket.Some? {
        OrphanSurvivesShift(s, OnRead(s, v), id);
      } else if |s.queue| > 1 {
        var calls := Complete(s.calls, head, Unwrap(v));
        assert calls[id] == s.calls[id];
      }
    }
  }

  lemma OrphanSurvivesShift(s: Executor, t: Executor, id: RequestId)
    requires Orphan(s, id) && s.queue != [] && id != s.queue[0].id
    requires t.queue == s.queue[1..] && t.nextId == s.nextId
    requires id in t.calls && t.calls[id] == s.calls[id]
    ensures Orphan(t, id)
  {
    IdsOfTail(s.queue);
  }

  /** A future that is pending but not queued is never settled by any later event. */
  lemma OrphanIsNeverSettled(s: Executor, e: Event, id: RequestId)
    requires Orphan(s, id)
    requires StepAsWritten(s, e).Some?
    ensures Orphan(StepAsWritten(s, e).value, id)
  {
    match e
    case Execute(query, writeFails) => OrphanSurvivesExecute(s, query, writeFails, id);
    case Read(reply) =>
      if reply.Some? {
        OrphanSurvivesRead(s, reply.value, id);
      }
    case _ =>
  }

  /** ... and so the `execute` waiting on it never returns. */
  lemma {:induction false} OrphanWaitsForever(s: Executor, es: seq<Event>, id: RequestId)
    requires Orphan(s, id)
    requires RunAsWritten(s, es).Some?
    ensures id in RunAsWritten(s, es).value.calls
    ensures RunAsWritten(s, es).value.calls[id].outcome.Pending?
    decreases |es|
  {
    if es != [] {
      OrphanIsNeverSettled(s, es[0], id);
      OrphanWaitsForever(StepAsWritten(s, es[0]).value, es[1..], id);
    }
  }

  /**
   * The corrected loop, given the same reply, completes the head and
   * reconnects, so the requests behind it are replayed on the next
   * connection and every pending future stays queued.
   */
  lemma CorrectedReadReconnects(s: Executor, v: Value)
    requires Inv(s) && s.loop.Reading? && s.socket.None? && s.queue != []
    ensures var t := Step(s, Read(Some(v))).value;
            && t.calls[s.queue[0].id].outcome == Unwrap(v)
            && t.queue == s.queue[1..]
            && t.loop == Connecting
            && Inv(t)
  {
    ReadResolvesOldest(s, v);
    StepPreservesInv(s, Read(Some(v)));
  }

  // ---------------------------------------------------------------------
  // The replay after a connect, as written, with its writes suspending.
  // ---------------------------------------------------------------------

  /**
   * The replay of src/RemoteExecutor.php:91-98 as written: `$socket` is
   * already the new connection, and the `foreach` walks the live queue,
   * `cursor` entries written so far. Each `write` may suspend, and an
   * `execute` that runs meanwhile both queues its request and writes it
   * on the same socket.
   */
  datatype Replaying = Replaying(s: Executor, cursor: nat)

  /** The connect and `unreference` of src/RemoteExecutor.php:91-92, before the `foreach`. */
  function ConnectAsWritten(s: Executor): Replaying {
    Replaying(s.(socket := Some(Connection(s.database, [], 0, false, false))), 0)
  }

  /**
   * The `foreach` references the socket and writes the next queue entry;
   * `None` once it has reached the end of the queue.
   */
  function WriteNext(r: Replaying): (w: Option<Replaying>)
    ensures w.Some? <==> r.s.socket.Some? && r.cursor < |r.s.queue|
    ensures w.Some? ==>
              && w.value.cursor == r.cursor + 1
              && w.value.s.queue == r.s.queue && w.value.s.calls == r.s.calls
              && w.value.s.loop == r.s.loop && w.value.s.database == r.s.database && w.value.s.nextId == r.s.nextId
              && w.value.s.socket.Some?
              && w.value.s.socket.value.written == r.s.socket.value.written + [r.s.queue[r.cursor].args]
              && w.value.s.socket.value.referenced
              && w.value.s.socket.value.database == r.s.socket.value.database
              && w.value.s.socket.value.answered == r.s.socket.value.answered
              && w.value.s.socket.value.closed == r.s.socket.value.closed
  {
    if r.s.socket.None? || r.cursor >= |r.s.queue| then None
    else
      var c := r.s.socket.value;
      Some(Replaying(r.s.(socket := Some(c.(written := c.written + [r.s.queue[r.cursor].args], referenced := true))),
                     r.cursor + 1))
  }

  /** The `foreach` run to the end with no `execute` in between. */
  function ReplayAll(r: Replaying): Replaying
    decreases |r.s.queue| - r.cursor
  {
    match WriteNext(r)
    case None => r
    case Some(w) => ReplayAll(w)
  }

  lemma {:induction false} ReplayRest(r: Replaying)
    requires r.s.socket.Some? && r.cursor <= |r.s.queue|
    requires r.s.socket.value.written == ArgsOf(r.s.queue[..r.cursor])
    requires r.s.socket.value.referenced == (r.cursor > 0)
    ensures ReplayAll(r).s == r.s.(socket := Some(r.s.socket.value.(written := ArgsOf(r.s.queue), referenced := r.s.queue != [])))
    decreases |r.s.queue| - r.cursor
  {
    var q := r.s.queue;
    if r.cursor == |q| {
      assert q[..r.cursor] == q;
    } else {
      var w := WriteNext(r).value;
      assert ArgsOf(q[..r.cursor]) + [q[r.cursor].args] == ArgsOf(q[..r.cursor + 1]);
      ReplayRest(w);
    }
  }

  /**
   * When no `execute` runs during the replay, the replay as written
   * leaves the state the atomic `OnConnected` produces, up to the loop
   * starting to read.
   */
  lemma ReplayWithoutInterleavingIsAtomic(s: Executor)
    ensures ReplayAll(ConnectAsWritten(s)).s.(loop := Reading) == OnConnected(s)
  {
    assert s.queue[..0] == [];
    ReplayRest(ConnectAsWritten(s));
  }

  /** An `execute` that runs while a replay write is suspended. */
  function ExecuteDuringReplay(r: Replaying, query: seq<Arg>): Replaying {
    Replaying(OnExecute(r.s, query, false), r.cursor)
  }

  const Ping: seq<string> := ["PING"]
  const GetK: seq<string> := ["GET", "k"]
  const IncrN: seq<string> := ["INCR", "n"]

  /** `PING` queued while the loop connects. */
  const Queued := Executor([Request(0, Ping)], Connecting, None, 0, map[0 := Call(Ping, Pending, false)], 1)

  /** The replay has written `PING` and `GET k` has been executed during that write. */
  const Interleaved := Replaying(
    Executor([Request(0, Ping), Request(1, GetK)], Connecting, Some(Connection(0, [Ping, GetK], 0, true, false)), 0,
             map[0 := Call(Ping, Pending, false), 1 := Call(GetK, Pending, false)], 2),
    1)

  /** The `foreach` has reached the end of the live queue. */
  const Replayed := Replaying(Interleaved.s.(socket := Some(Connection(0, [Ping, GetK, GetK], 0, true, false))), 2)

  lemma QueuedIsReachable()
    ensures OnExecute(Init(0), [Text("PING")], false) == Queued
  {
    assert StrvalAll([Text("PING")]) == Ping;
  }

  lemma InterleavingSteps()
    ensures WriteNext(ConnectAsWritten(Queued)).Some?
    ensures ExecuteDuringReplay(WriteNext(ConnectAsWritten(Queued)).value, [Text("GET"), Text("k")]) == Interleaved
    ensures WriteNext(Interleaved) == Some(Replayed)
    ensures WriteNext(Replayed).None?
  {
    assert StrvalAll([Text("GET"), Text("k")]) == GetK;
    assert Queued.queue[0].args == Ping;
    assert [] + [Ping] == [Ping];
    var r1 := WriteNext(ConnectAsWritten(Queued)).value;
    assert r1.s.socket == Some(Connection(0, [Ping], 0, true, false));
    var r2 := ExecuteDuringReplay(r1, [Text("GET"), Text("k")]);
    assert r2.s.queue == [Request(0, Ping)] + [Request(1, GetK)] == Interleaved.s.queue;
    assert r2.s.socket.value.written == [Ping] + [GetK] == [Ping, GetK];
    assert r2.s.calls == Interleaved.s.calls;
    assert Interleaved.s.queue[1].args == GetK;
    assert [Ping, GetK] + [GetK] == [Ping, GetK, GetK];
  }

  /**
   * `PING` is queued while the loop connects. The replay writes it and
   * suspends; `GET k` is executed meanwhile and written on the new
   * socket; the `foreach` then reaches `GET k` in the live queue and
   * writes it a second time. Once the loop reads, the socket has three
   * unanswered writes for two queued requests, which `Inv` forbids.
   */
  lemma ReplayWritesTwice()
    ensures var s0 := OnExecute(Init(0), [Text("PING")], false);
            var r1 := WriteNext(ConnectAsWritten(s0));
            && r1.Some?
            && var r2 := ExecuteDuringReplay(r1.value, [Text("GET"), Text("k")]);
               var r3 := WriteNext(r2);
               && r3.Some? && WriteNext(r3.value).None?
               && var t := r3.value.s.(loop := Reading);
                  && Inv(s0)
                  && t.socket.Some?
                  && t.socket.value.written == [["PING"], ["GET", "k"], ["GET", "k"]]
                  && |t.queue| == 2
                  && !Inv(t)
  {
    QueuedIsReachable();
    InterleavingSteps();
    InitInv(0);
    ExecutePreservesInv(Init(0), [Text("PING")], false);
    var t := Replayed.s.(loop := Reading);
    assert |t.socket.value.written| != t.socket.value.answered + |t.queue|;
  }

  /** The reading executor after `INCR n` has been executed as well. */
  const Misaligned := Executor(
    [Request(0, Ping), Request(1, GetK), Request(2, IncrN)], Reading,
    Some(Connection(0, [Ping, GetK, GetK, IncrN], 0, true, false)), 0,
    map[0 := Call(Ping, Pending, false), 1 := Call(GetK, Pending, false), 2 := Call(IncrN, Pending, false)], 3)

  lemma MisalignedIsReachable()
    ensures OnExecute(Replayed.s.(loop := Reading), [Text("INCR"), Text("n")], false) == Misaligned
  {
    assert StrvalAll([Text("INCR"), Text("n")]) == IncrN;
    var t := OnExecute(Replayed.s.(loop := Reading), [Text("INCR"), Text("n")], false);
    assert t.queue == [Request(0, Ping), Request(1, GetK)] + [Request(2, IncrN)] == Misaligned.queue;
    assert t.socket.value.written == [Ping, GetK, GetK] + [IncrN] == [Ping, GetK, GetK, IncrN];
    assert t.calls == Misaligned.calls;
  }

  /** Three replies read on the misaligned connection: the third completes call 2. */
  lemma ThirdReplyCompletesIncr(v1: Value, v2: Value, v3: Value)
    ensures var u := Run(Misaligned, ReplyEvents([v1, v2, v3]));
            u.Some? && 2 in u.value.calls && u.value.calls[2] == Call(IncrN, Unwrap(v3), false)
  {
    var t1 := OnRead(Misaligned, v1);
    var t2 := OnRead(t1, v2);
    assert t1.queue == [Request(1, GetK), Request(2, IncrN)];
    assert t2.queue == [Request(2, IncrN)];
    RunReplyEvents(Misaligned, [v1, v2, v3]);
    RunReplyEvents(t1, [v1, v2, v3][1..]);
    RunReplyEvents(t2, [v1, v2, v3][1..][1..]);
    assert [v1, v2, v3][1..][1..][1..] == [];
  }

  /**
   * The duplicate write shifts every later pairing: with `INCR n` queued
   * next, the server's third reply, which answers the second `GET k`
   * write, completes the `INCR n` call.
   */
  lemma ReplayMisattributesReply(v1: Value, v2: Value, v3: Value)
    ensures var s0 := OnExecute(Init(0), [Text("PING")], false);
            var r1 := WriteNext(ConnectAsWritten(s0));
            && r1.Some?
            && var r3 := WriteNext(ExecuteDuringReplay(r1.value, [Text("GET"), Text("k")]));
               && r3.Some?
               && var t := OnExecute(r3.value.s.(loop := Reading), [Text("INCR"), Text("n")], false);
                  var u := Run(t, ReplyEvents([v1, v2, v3]));
                  && t.socket.Some? && t.socket.value.written[2] == ["GET", "k"]
                  && u.Some? && 2 in u.value.calls
                  && u.value.calls[2].args == ["INCR", "n"]
                  && u.value.calls[2].outcome == Unwrap(v3)
  {
    QueuedIsReachable();
    InterleavingSteps();
    MisalignedIsReachable();
    ThirdReplyCompletesIncr(v1, v2, v3);
  }
}

=== FILE: executor_invariant.dfy ===
/**
 * Every transition of the executor keeps `Inv`: the live socket stays in
 * step with the queue, and a future is pending exactly while its request
 * is queued, so no request is dropped without an outcome.
 */
module ExecutorInvariant {
  import opened Options
  import opened Coercion
  import opened RespValue
  import opened RemoteExecutor

  lemma IdsOfSnoc(q: seq<Request>, r: Request)
    ensures IdsOf(q + [r]) == IdsOf(q) + [r.id]
  {
  }

  lemma ArgsOfSnoc(q: seq<Request>, r: Request)
    ensures ArgsOf(q + [r]) == ArgsOf(q) + [r.args]
  {
  }

  lemma ArgsOfTail(q: seq<Request>)
    requires q != []
    ensures ArgsOf(q) == [q[0].args] + ArgsOf(q[1..])
  {
  }

  /** Every queued future ends up failed. */
  lemma FailQueuedFailsAll(calls: map<RequestId, Call>, q: seq<Request>, message: string)
    requires forall i :: 0 <= i < |q| ==> q[i].id in calls
    ensures forall i :: 0 <= i < |q| ==>
              q[i].id in FailQueued(calls, q, message)
              && FailQueued(calls, q, message)[q[i].id].outcome == Failed(ConnectionError(message))
  {
    forall i | 0 <= i < |q|
      ensures q[i].id in FailQueued(calls, q, message)
      ensures FailQueued(calls, q, message)[q[i].id].outcome == Failed(ConnectionError(message))
    {
      assert IdsOf(q)[i] == q[i].id;
    }
  }

  /** A future that is not queued is left as it was. */
  lemma FailQueuedSpares(calls: map<RequestId, Call>, q: seq<Request>, message: string, id: RequestId)
    requires id in calls && id !in IdsOf(q)
    ensures id in FailQueued(calls, q, message) && FailQueued(calls, q, message)[id] == calls[id]
  {
  }

  lemma InitInv(database: int)
    ensures Inv(Init(database))
  {
  }

  lemma ExecuteKeepsQueueWellFormed(s: Executor, query: seq<Arg>, writeFails: bool)
    requires Inv(s)
    ensures QueueWellFormed(OnExecute(s, query, writeFails))
  {
    var t := OnExecute(s, query, writeFails);
    assert t.queue == s.queue + [Request(s.nextId, StrvalAll(query))];
    forall i | 0 <= i < |t.queue|
      ensures t.queue[i].id in t.calls && t.calls[t.queue[i].id].args == t.queue[i].args
    {
      if i < |s.queue| {
        assert t.queue[i] == s.queue[i];
        assert s.queue[i].id < s.nextId;
      }
    }
  }

  lemma ExecuteKeepsPendingQueued(s: Executor, query: seq<Arg>, writeFails: bool)
    requires Inv(s)
    ensures PendingIsQueued(OnExecute(s, query, writeFails))
  {
    var t := OnExecute(s, query, writeFails);
    IdsOfSnoc(s.queue, Request(s.nextId, StrvalAll(query)));
    forall id | id in t.calls
      ensures t.calls[id].outcome.Pending? <==> id in IdsOf(t.queue)
    {
      if id != s.nextId {
        assert id in IdsOf(t.queue) <==> id in IdsOf(s.queue);
      }
    }
  }

  lemma ExecuteKeepsSync(s: Executor, query: seq<Arg>, writeFails: bool)
    requires Inv(s)
    requires s.socket.Some? && !writeFails
    ensures InSync(OnExecute(s, query, writeFails).socket.value, OnExecute(s, query, writeFails).queue)
  {
    var c := s.socket.value;
    var r := Request(s.nextId, StrvalAll(query));
    ArgsOfSnoc(s.queue, r);
    assert (c.written + [r.args])[c.answered..] == c.written[c.answered..] + [r.args];
  }

  lemma ExecutePreservesInv(s: Executor, query: seq<Arg>, writeFails: bool)
    requires Inv(s)
    ensures Inv(OnExecute(s, query, writeFails))
  {
    ExecuteKeepsQueueWellFormed(s, query, writeFails);
    ExecuteKeepsPendingQueued(s, query, writeFails);
    if s.socket.Some? && !writeFails {
      ExecuteKeepsSync(s, query, writeFails);
    }
  }

  lemma ConnectedPreservesInv(s: Executor)
    requires Inv(s) && s.loop.Connecting?
    ensures Inv(OnConnected(s))
  {
    assert ArgsOf(s.queue)[0..] == ArgsOf(s.queue);
  }

  lemma ReconnectPreservesInv(s: Executor)
    requires Inv(s) && s.loop.Reading?
    ensures Inv(Reconnect(s))
  {
  }

  lemma FailAllPreservesInv(s: Executor, message: string)
    requires Inv(s)
    ensures Inv(FailAll(s, message))
  {
    var t := FailAll(s, message);
    assert IdsOf(t.queue) == [];
    forall id | id in t.calls
      ensures !t.calls[id].outcome.Pending?
    {
      if id !in IdsOf(s.queue) {
        assert !s.calls[id].outcome.Pending?;
      }
    }
  }

  /** After a shift, the remaining queue still satisfies the queue invariants. */
  lemma ReadKeepsQueueWellFormed(s: Executor, v: Value)
    requires Inv(s) && s.queue != []
    ensures var calls := Complete(s.calls, s.queue[0].id, Unwrap(v));
            QueueWellFormed(s.(queue := s.queue[1..], calls := calls))
  {
    var calls := Complete(s.calls, s.queue[0].id, Unwrap(v));
    var t := s.(queue := s.queue[1..], calls := calls);
    forall i | 0 <= i < |t.queue|
      ensures t.queue[i].id in t.calls && t.calls[t.queue[i].id].args == t.queue[i].args
    {
      assert t.queue[i] == s.queue[i + 1];
    }
  }

  lemma ReadKeepsPendingQueued(s: Executor, v: Value)
    requires Inv(s) && s.queue != []
    ensures var calls := Complete(s.calls, s.queue[0].id, Unwrap(v));
            PendingIsQueued(s.(queue := s.queue[1..], calls := calls))
  {
    var head := s.queue[0].id;
    var calls := Complete(s.calls, head, Unwrap(v));
    var t := s.(queue := s.queue[1..], calls := calls);
    IdsOfTail(s.queue);
    assert head !in IdsOf(t.queue) by {
      forall i | 0 <= i < |t.queue|
        ensures IdsOf(t.queue)[i] != head
      {
        assert t.queue[i] == s.queue[i + 1];
      }
    }
    assert Unwrap(v) != Pending;
    forall id | id in t.calls
      ensures t.calls[id].outcome.Pending? <==> id in IdsOf(t.queue)
    {
      if id != head {
        assert id in IdsOf(s.queue) <==> id in IdsOf(t.queue);
      }
    }
  }

  lemma ReadKeepsSync(s: Executor, v: Value)
    requires Inv(s) && s.queue != [] && s.socket.Some?
    ensures InSync(OnRead(s, v).socket.value, OnRead(s, v).queue)
  {
    var c := s.socket.value;
    ArgsOfTail(s.queue);
    assert c.written[c.answered + 1..] == c.written[c.answered..][1..];
  }

  lemma ReadPreservesInv(s: Executor, v: Value)
    requires Inv(s) && s.loop.Reading?
    ensures Inv(OnRead(s, v))
  {
    if s.queue == [] {
      FailAllPreservesInv(s, "Can't shift from an empty datastructure");
    } else {
      ReadKeepsQueueWellFormed(s, v);
      ReadKeepsPendingQueued(s, v);
      if s.socket.Some? {
        ReadKeepsSync(s, v);
      }
    }
  }

  lemma ReturnPreservesInv(s: Executor, id: RequestId)
    requires Inv(s) && CanReturn(s, id)
    ensures Inv(OnReturn(s, id))
  {
    var t := OnReturn(s, id);
    assert forall i :: 0 <= i < |s.queue| ==> s.queue[i].id != id by {
      assert id !in IdsOf(s.queue);
      forall i | 0 <= i < |s.queue|
        ensures s.queue[i].id != id
      {
        assert IdsOf(s.queue)[i] == s.queue[i].id;
      }
    }
  }

  lemma StepPreservesInv(s: Executor, e: Event)
    requires Inv(s) && Step(s, e).Some?
    ensures Inv(Step(s, e).value)
  {
    match e
    case Execute(query, writeFails) => ExecutePreservesInv(s, query, writeFails);
    case Connected => ConnectedPreservesInv(s);
    case Read(reply) =>
      if reply.None? { ReconnectPreservesInv(s); } else { ReadPreservesInv(s, reply.value); }
    case IoFailure => ReconnectPreservesInv(s);
    case FatalFailure(message) => FailAllPreservesInv(s, message);
    case ExecuteReturns(id) => ReturnPreservesInv(s, id);
  }

  /** The invariant holds after every run of events from a new executor. */
  lemma {:induction false} RunPreservesInv(s: Executor, es: seq<Event>)
    requires Inv(s) && Run(s, es).Some?
    ensures Inv(Run(s, es).value)
    decreases |es|
  {
    if es != [] {
      StepPreservesInv(s, es[0]);
      RunPreservesInv(Step(s, es[0]).value, es[1..]);
    }
  }

  lemma Reachable(database: int, es: seq<Event>)
    requires Run(Init(database), es).Some?
    ensures Inv(Run(Init(database), es).value)
  {
    InitInv(database);
    RunPreservesInv(Init(database), es);
  }
}

=== FILE: executor_properties.dfy ===
/**
 * What each executor transition promises: enqueue order, replay on
 * connect, FIFO pairing of replies, reconnect without loss, fail-all,
 * database tracking across `select`, and `quit`.
 */
module ExecutorProperties {
  import opened Options
  import opened Coercion
  import opened RespValue
  import opened RemoteExecutor
  import opened ExecutorInvariant

  /**
   * `execute` queues exactly one request, at the tail, with the
   * stringified arguments and a pending future, leaving earlier entries
   * and earlier calls as they were; a failed write drops the socket but
   * not the request.
   */
  lemma EnqueueAppends(s: Executor, query: seq<Arg>, writeFails: bool)
    requires Inv(s)
    ensures var t := Step(s, Execute(query, writeFails)).value;
            && |t.queue| == |s.queue| + 1
            && t.queue[..|s.queue|] == s.queue
            && t.queue[|s.queue|].args == StrvalAll(query)
            && t.calls[t.queue[|s.queue|].id] == Call(StrvalAll(query), Pending, false)
            && t.queue[|s.queue|].id !in s.calls
            && (forall id :: id in s.calls ==> id in t.calls && t.calls[id] == s.calls[id])
            && (writeFails ==> t.socket.None?)
            && (s.socket.Some? && !writeFails ==>
                  t.socket.Some? && t.socket.value.written == s.socket.value.written + [StrvalAll(query)]
                  && t.socket.value.referenced)
            && t.database == s.database
  {
    var t := Step(s, Execute(query, writeFails)).value;
    assert t.queue[..|s.queue|] == s.queue;
  }

  /** `execute` calls `run` only when the loop is not running; either way the loop runs afterwards. */
  lemma ExecuteStartsLoopOnlyWhenStopped(s: Executor, query: seq<Arg>, writeFails: bool)
    ensures var t := Step(s, Execute(query, writeFails)).value;
            && Running(t)
            && (Running(s) ==> t.loop == s.loop)
            && (!Running(s) ==> t.loop == Connecting)
  {
  }

  /**
   * A reply completes the oldest queued request, and only it; the
   * request it answers is the oldest write on the connection that has
   * not been answered. An error reply fails that one future.
   */
  lemma ReadResolvesOldest(s: Executor, v: Value)
    requires Inv(s) && s.loop.Reading? && s.queue != []
    ensures var t := Step(s, Read(Some(v))).value;
            var head := s.queue[0];
            && t.queue == s.queue[1..]
            && head.id in t.calls
            && t.calls[head.id].outcome == (if v.Error? then Failed(ServerError(v.message)) else Resolved(v))
            && (forall id :: id in s.calls && id != head.id ==> id in t.calls && t.calls[id] == s.calls[id])
            && (s.socket.Some? ==>
                  && s.socket.value.written[s.socket.value.answered] == head.args
                  && t.socket.Some?
                  && t.socket.value.answered == s.socket.value.answered + 1
                  && (t.socket.value.referenced <==> |s.queue| > 1))
  {
    var c := s.socket;
    if c.Some? {
      assert c.value.written[c.value.answered..][0] == ArgsOf(s.queue)[0];
    }
  }

  /** A reply with nothing queued makes the shift throw, which stops the loop. */
  lemma ReadWithEmptyQueueStops(s: Executor, v: Value)
    requires Inv(s) && s.loop.Reading? && s.queue == []
    ensures var t := Step(s, Read(Some(v))).value;
            !Running(t) && t.socket.None? && t.calls == s.calls
  {
  }

  /**
   * End of stream and I/O failures drop the socket and go back to
   * connecting; nothing is resolved, dropped or reordered.
   */
  lemma FailureReconnects(s: Executor, e: Event)
    requires Inv(s) && s.loop.Reading?
    requires e == IoFailure || e == Read(None)
    ensures var t := Step(s, e).value;
            && t.loop == Connecting && t.socket.None?
            && t.queue == s.queue && t.calls == s.calls && t.database == s.database
  {
  }

  /**
   * Any other failure errors every pending future with a connection
   * error carrying the failure's message, empties the queue and stops
   * the loop; settled futures keep their outcome.
   */
  lemma FailAllErrorsEveryPending(s: Executor, message: string)
    requires Inv(s) && Running(s)
    ensures var t := Step(s, FatalFailure(message)).value;
            && t.queue == [] && !Running(t) && t.socket.None?
            && t.calls.Keys == s.calls.Keys
            && (forall id :: id in s.calls && s.calls[id].outcome.Pending? ==>
                  t.calls[id].outcome == Failed(ConnectionError(message)))
            && (forall id :: id in s.calls && !s.calls[id].outcome.Pending? ==> t.calls[id] == s.calls[id])
  {
  }

  /** A settled future never changes again. */
  lemma SettledIsFinal(s: Executor, e: Event, id: RequestId)
    requires Inv(s) && id in s.calls && !s.calls[id].outcome.Pending?
    requires Step(s, e).Some?
    ensures id in Step(s, e).value.calls
    ensures Step(s, e).value.calls[id].outcome == s.calls[id].outcome
  {
    if e.Read? && e.reply.Some? && s.queue != [] {
      assert s.queue[0].id == IdsOf(s.queue)[0];
    }
  }

  lemma {:induction false} SettledStaysSettled(s: Executor, es: seq<Event>, id: RequestId)
    requires Inv(s) && id in s.calls && !s.calls[id].outcome.Pending?
    requires Run(s, es).Some?
    ensures id in Run(s, es).value.calls
    ensures Run(s, es).value.calls[id].outcome == s.calls[id].outcome
    decreases |es|
  {
    if es != [] {
      SettledIsFinal(s, es[0], id);
      StepPreservesInv(s, es[0]);
      SettledStaysSettled(Step(s, es[0]).value, es[1..], id);
    }
  }

  /**
   * When an `await` returns, a successful `select` sets the remembered
   * database to its cast argument; a failed one, or any other command,
   * leaves it alone.
   */
  lemma SelectTracksDatabase(s: Executor, id: RequestId)
    requires CanReturn(s, id)
    ensures var t := Step(s, ExecuteReturns(id)).value;
            var call := s.calls[id];
            && (Command(call.args) == "select" && call.outcome.Resolved? ==> t.database == SelectedDatabase(call.args))
            && (Command(call.args) != "select" || call.outcome.Failed? ==> t.database == s.database)
            && t.queue == s.queue && t.loop == s.loop
  {
  }

  /** The remembered database changes only when a successful `select` returns. */
  lemma DatabaseChangesOnlyOnSelect(s: Executor, e: Event)
    requires Step(s, e).Some? && Step(s, e).value.database != s.database
    ensures e.ExecuteReturns? && e.id in s.calls
    ensures Command(s.calls[e.id].args) == "select" && s.calls[e.id].outcome.Resolved?
  {
  }

  /** `select` with an integer argument remembers exactly that integer. */
  lemma SelectOfNumber(name: string, database: int)
    ensures SelectedDatabase(StrvalAll([Text(name), Number(database)])) == database
  {
  }

  /**
   * The command name is compared case-insensitively: the first argument
   * names a command exactly when it equals that name up to the case of
   * its letters.
   */
  lemma CommandIgnoresCase(args: seq<string>, name: string)
    requires |args| > 0
    ensures Command(args) == Lower(name) <==> EqualIgnoringCase(args[0], name)
  {
    LowerIgnoresCase(args[0], name);
  }

  /** `SELECT` and `SeLeCt` are both `select`, whatever arguments follow. */
  lemma MixedCaseSelect(rest: seq<string>)
    ensures Command(["SELECT"] + rest) == "select"
    ensures Command(["SeLeCt"] + rest) == "select"
  {
    assert (["SELECT"] + rest)[0] == "SELECT";
    assert (["SeLeCt"] + rest)[0] == "SeLeCt";
    assert Lower("SELECT") == "select";
    assert Lower("SeLeCt") == "select";
  }

  /** Whatever the outcome, a returning `quit` closes the socket it finds. */
  lemma QuitClosesSocket(s: Executor, id: RequestId)
    requires CanReturn(s, id) && Command(s.calls[id].args) == "quit"
    ensures var t := Step(s, ExecuteReturns(id)).value;
            && (s.socket.Some? ==> t.socket.Some? && t.socket.value.closed)
            && (s.socket.None? ==> t.socket.None?)
            && t.loop == s.loop && t.queue == s.queue
  {
  }

  /** The events of the socket delivering the replies `vs`, one after another. */
  function ReplyEvents(vs: seq<Value>): (es: seq<Event>)
    ensures |es| == |vs|
    ensures forall i :: 0 <= i < |vs| ==> es[i] == Read(Some(vs[i]))
  {
    seq(|vs|, i requires 0 <= i < |vs| => Read(Some(vs[i])))
  }

  /** Running the events of several replies is taking the first, then the rest. */
  lemma RunReplyEvents(s: Executor, vs: seq<Value>)
    requires vs != [] && Step(s, Read(Some(vs[0]))).Some?
    ensures Run(s, ReplyEvents(vs)) == Run(Step(s, Read(Some(vs[0]))).value, ReplyEvents(vs[1..]))
  {
    assert ReplyEvents(vs)[0] == Read(Some(vs[0]));
    assert ReplyEvents(vs)[1..] == ReplyEvents(vs[1..]);
  }

  /**
   * FIFO pairing over a connection: replies read one after another settle
   * the queued requests in queue order, the i-th reply the i-th request,
   * and leave the later requests queued.
   */
  lemma {:induction false} RepliesResolveInOrder(s: Executor, vs: seq<Value>)
    requires Inv(s) && s.loop.Reading? && s.socket.Some?
    requires |vs| <= |s.queue|
    ensures Run(s, ReplyEvents(vs)).Some?
    ensures var t := Run(s, ReplyEvents(vs)).value;
            && t.queue == s.queue[|vs|..]
            && t.loop == Reading
            && forall i :: 0 <= i < |vs| ==>
                 s.queue[i].id in t.calls && t.calls[s.queue[i].id].outcome == Unwrap(vs[i])
    decreases |vs|
  {
    if vs != [] {
      var s1 := Step(s, Read(Some(vs[0]))).value;
      ReadResolvesOldest(s, vs[0]);
      StepPreservesInv(s, Read(Some(vs[0])));
      RunReplyEvents(s, vs);
      RepliesResolveInOrder(s1, vs[1..]);
      var t := Run(s1, ReplyEvents(vs[1..])).value;
      assert t.queue == s.queue[|vs|..] by {
        assert s1.queue[|vs| - 1..] == s.queue[|vs|..];
      }
      SettledStaysSettled(s1, ReplyEvents(vs[1..]), s.queue[0].id);
      forall i | 1 <= i < |vs|
        ensures s.queue[i].id in t.calls && t.calls[s.queue[i].id].outcome == Unwrap(vs[i])
      {
        assert s1.queue[i - 1] == s.queue[i];
        assert vs[1..][i - 1] == vs[i];
      }
    }
  }
}

=== FILE: options.dfy ===
/** A value that may be absent, standing in for PHP's `null`. */
module Options {

  datatype Option<+T> = None | Some(value: T)
}

=== FILE: parser_scenarios.dfy ===
/**
 * The decoder's concrete scenarios (test/ParserTest.php), each stated
 * as the exact sequence of callback values and the final parser state.
 */
module ParserScenarios {
  import opened Coercion
  import opened RespValue
  import opened RespFraming
  import opened RespAssembly
  import opened RespParser

  /** One unit as it appears on the wire, in any of its framings. */
  datatype Piece =
    | SimpleP(text: string)
    | ErrorP(text: string)
    | IntP(n: int)
    | BulkP(bytes: string)
    | NullBulkP
    | HeaderP(count: int)

  predicate ValidPiece(p: Piece) {
    match p
    case SimpleP(t) => NoCr(t)
    case ErrorP(t) => NoCr(t)
    case _ => true
  }

  function Render(p: Piece): string {
    match p
    case SimpleP(t) => Line('+', t)
    case ErrorP(t) => Line('-', t)
    case IntP(n) => Line(':', Decimal(n))
    case BulkP(b) => Bulk(b)
    case NullBulkP => NullBulk
    case HeaderP(k) => Line('*', Decimal(k))
  }

  function PieceUnit(p: Piece): Unit {
    match p
    case SimpleP(t) => Scalar(Str(t))
    case ErrorP(t) => Scalar(Error(t))
    case IntP(n) => Scalar(Integer(n))
    case BulkP(b) => Scalar(Str(b))
    case NullBulkP => Scalar(Nil)
    case HeaderP(k) => Header(k)
  }

  function RenderAll(ps: seq<Piece>): string
    decreases |ps|
  {
    if ps == [] then [] else Render(ps[0]) + RenderAll(ps[1..])
  }

  lemma RenderAllOne(p: Piece)
    ensures RenderAll([p]) == Render(p)
  {
    assert [p][1..] == [];
  }

  lemma RenderAllCons(p: Piece, ps: seq<Piece>)
    ensures RenderAll([p] + ps) == Render(p) + RenderAll(ps)
  {
    assert ([p] + ps)[1..] == ps;
  }

  lemma {:induction false} RenderAllConcat(a: seq<Piece>, b: seq<Piece>)
    ensures RenderAll(a + b) == RenderAll(a) + RenderAll(b)
    decreases |a|
  {
    if a == [] {
      assert a + b == b;
    } else {
      assert (a + b)[1..] == a[1..] + b;
      RenderAllConcat(a[1..], b);
    }
  }

  function UnitsOf(ps: seq<Piece>): (us: seq<Unit>)
    ensures |us| == |ps|
    ensures forall i :: 0 <= i < |ps| ==> us[i] == PieceUnit(ps[i])
  {
    seq(|ps|, i requires 0 <= i < |ps| => PieceUnit(ps[i]))
  }

  lemma PieceFraming(p: Piece, rest: string)
    requires ValidPiece(p)
    ensures TryParse(Render(p) + rest) == Extracted(PieceUnit(p), rest)
  {
    match p
    case SimpleP(t) =>
      LineFraming('+', t, rest);
    case ErrorP(t) =>
      LineFraming('-', t, rest);
    case IntP(n) =>
      NoCrDecimal(n);
      LineFraming(':', Decimal(n), rest);
      IntValOfDecimal(n, []);
      assert Decimal(n) + [] == Decimal(n);
    case BulkP(b) =>
      BulkFraming(b, rest);
    case NullBulkP =>
      NullBulkFraming(rest);
    case HeaderP(k) =>
      NoCrDecimal(k);
      LineFraming('*', Decimal(k), rest);
      IntValOfDecimal(k, []);
      assert Decimal(k) + [] == Decimal(k);
  }

  lemma {:induction false} RenderTokenizes(ps: seq<Piece>, rest: string)
    requires AllValid(ps)
    ensures Tokenizes(RenderAll(ps) + rest, UnitsOf(ps), rest)
    decreases |ps|
  {
    if ps == [] {
      assert RenderAll(ps) + rest == rest;
    } else {
      var tail := RenderAll(ps[1..]) + rest;
      assert RenderAll(ps) + rest == Render(ps[0]) + tail;
      PieceFraming(ps[0], tail);
      RenderTokenizes(ps[1..], rest);
      assert UnitsOf(ps)[1..] == UnitsOf(ps[1..]);
    }
  }

  predicate AllValid(ps: seq<Piece>) {
    forall i :: 0 <= i < |ps| ==> ValidPiece(ps[i])
  }

  /** A fresh parser fed well-framed pieces emits what assembly of their units emits. */
  lemma FeedPieces(ps: seq<Piece>)
    requires AllValid(ps)
    ensures var m := FeedUnits(Idle, UnitsOf(ps));
            Append(Fresh, RenderAll(ps)) == Fed(Parser([], m.builder), m.emitted, false)
  {
    RenderTokenizes(ps, []);
    assert RenderAll(ps) + [] == RenderAll(ps);
    assert Fresh.buffer + RenderAll(ps) == RenderAll(ps);
    DrainTokenized(RenderAll(ps), UnitsOf(ps), [], Idle);
    var m := FeedUnits(Idle, UnitsOf(ps));
    assert Drain(Parser([], m.builder)) == Fed(Parser([], m.builder), [], false);
    assert m.emitted + [] == m.emitted;
  }

  /**
   * Pieces whose units are exactly those of the replies `vs` are decoded
   * into `vs`, in order, and leave the parser fresh.
   */
  lemma Replies(ps: seq<Piece>, vs: seq<Value>)
    requires AllValid(ps)
    requires UnitsOf(ps) == UnitsAll(vs)
    ensures Append(Fresh, RenderAll(ps)) == Fed(Fresh, vs, false)
  {
    FeedPieces(ps);
    PipelinedFromIdle(vs);
  }

  /** The decimal renderings the scenarios below use. */
  lemma SmallDecimals()
    ensures Decimal(1) == "1" && Decimal(2) == "2" && Decimal(3) == "3"
    ensures Decimal(-1) == "-1" && Decimal(11) == "11" && Decimal(42) == "42"
  {
    assert Digits(4) == "4";
  }

  // Each scenario writes its input split at unit boundaries, one string
  // literal per unit, so the framing of the test bytes can be read off.

  lemma BulkString()
    ensures Append(Fresh, "$3\r\nfoo\r\n") == Fed(Fresh, [Str("foo")], false)
  {
    assert Encode(Str("foo")) == "$3\r\nfoo\r\n" by { SmallDecimals(); }
    RoundTrip(Str("foo"));
  }

  lemma IntegerReply()
    ensures Append(Fresh, ":42\r\n") == Fed(Fresh, [Integer(42)], false)
  {
    assert Encode(Integer(42)) == ":42\r\n" by { SmallDecimals(); }
    RoundTrip(Integer(42));
  }

  lemma SimpleString()
    ensures Append(Fresh, "+foo\r\n") == Fed(Fresh, [Str("foo")], false)
  {
    var ps := [SimpleP("foo")];
    RenderAllOne(SimpleP("foo"));
    assert Render(SimpleP("foo")) == "+foo\r\n";
    assert AllValid(ps) by { assert NoCr("foo"); }
    UnitsAllOne(Str("foo"));
    assert UnitsOf(ps) == [Scalar(Str("foo"))];
    Replies(ps, [Str("foo")]);
  }

  lemma ErrorReply()
    ensures Append(Fresh, "-" + "ERR something went wrong :(" + "\r\n")
            == Fed(Fresh, [Error("ERR something went wrong :(")], false)
  {
    var e := "ERR something went wrong :(";
    var ps := [ErrorP(e)];
    RenderAllOne(ErrorP(e));
    assert AllValid(ps) by { assert NoCr(e); }
    UnitsAllOne(Error(e));
    Replies(ps, [Error(e)]);
  }

  lemma StringNull()
    ensures Append(Fresh, "$-1\r\n") == Fed(Fresh, [Nil], false)
  {
    RoundTrip(Nil);
  }

  /** `+foo\r\n+bar\r\n`, for any two simple strings: two values, in order. */
  lemma PipelinedStrings(a: string, b: string)
    requires NoCr(a) && NoCr(b)
    ensures Append(Fresh, RenderAll([SimpleP(a), SimpleP(b)])) == Fed(Fresh, [Str(a), Str(b)], false)
  {
    var ps := [SimpleP(a), SimpleP(b)];
    var vs := [Str(a), Str(b)];
    assert UnitsOf(ps) == UnitsAll(vs) by {
      UnitsAllOne(Str(b));
      UnitsAllCons(Str(a), [Str(b)]);
      assert [Str(a)] + [Str(b)] == vs;
    }
    Replies(ps, vs);
  }

  lemma LatencyFirst()
    ensures Append(Fresh, "$3\r") == Fed(Parser("$3\r", Idle), [], false)
  {
    WaitsForCrlf("$3\r");
    assert Fresh.buffer + "$3\r" == "$3\r";
  }

  lemma LatencySecond()
    ensures Append(Parser("$3\r", Idle), "\nfoo\r") == Fed(Parser("$3\r\nfoo\r", Idle), [], false)
  {
    var b := "$3\r\nfoo\r";
    assert "$3\r" + "\nfoo\r" == b;
    assert b == Line('$', "3") + "foo\r";
    FirstCrlfOfLine('$', "3", "foo\r");
    assert b[1..3] == Decimal(3) + "\r" by { SmallDecimals(); }
    IntValOfDecimal(3, "\r");
    BulkConsumption(b);
  }

  lemma LatencyThird()
    ensures Append(Parser("$3\r\nfoo\r", Idle), "\n") == Fed(Fresh, [Str("foo")], false)
  {
    assert "$3\r\nfoo\r" + "\n" == Fresh.buffer + "$3\r\nfoo\r\n";
    BulkString();
  }

  /** Fragments `$3\r`, `\nfoo\r`, `\n`: nothing, nothing, then "foo". */
  lemma Latency()
    ensures var a1 := Append(Fresh, "$3\r");
            var a2 := Append(a1.parser, "\nfoo\r");
            var a3 := Append(a2.parser, "\n");
            a1.emitted == [] && a2.emitted == [] && a3 == Fed(Fresh, [Str("foo")], false)
  {
    LatencyFirst();
    LatencySecond();
    LatencyThird();
  }

  lemma ArrayNull()
    ensures Append(Fresh, "*-1\r\n") == Fed(Fresh, [Nil], false)
  {
    var ps := [HeaderP(-1)];
    assert RenderAll(ps) == "*-1\r\n" by {
      RenderAllOne(HeaderP(-1));
      SmallDecimals();
    }
    FeedPieces(ps);
  }

  lemma ArrayEmpty()
    ensures Append(Fresh, "*0\r\n") == Fed(Fresh, [Array([])], false)
  {
    assert Encode(Array([])) == "*0\r\n";
    RoundTrip(Array([]));
  }

  /** `*1\r\n+foo\r\n`, for any simple string. */
  lemma ArraySingle(a: string)
    requires NoCr(a)
    ensures Append(Fresh, RenderAll([HeaderP(1), SimpleP(a)])) == Fed(Fresh, [Array([Str(a)])], false)
  {
    var ps := [HeaderP(1), SimpleP(a)];
    var v := Array([Str(a)]);
    assert UnitsOf(ps) == UnitsAll([v]) by {
      UnitsAllOne(Str(a));
      UnitsAllOne(v);
    }
    Replies(ps, [v]);
  }

  lemma MultipleUnits(a: string, n: int, b: string)
    ensures UnitsOf([HeaderP(3), SimpleP(a), IntP(n), BulkP(b)])
            == UnitsAll([Array([Str(a), Integer(n), Str(b)])])
  {
    var xs := [Str(a), Integer(n), Str(b)];
    UnitsAllOne(Str(b));
    UnitsAllCons(Integer(n), [Str(b)]);
    UnitsAllCons(Str(a), [Integer(n), Str(b)]);
    assert [Integer(n)] + [Str(b)] == xs[1..];
    assert [Str(a)] + xs[1..] == xs;
    UnitsAllOne(Array(xs));
  }

  /**
   * `*3\r\n+foo\r\n:42\r\n$11\r\nHello World\r\n`, for any simple string,
   * integer and bulk string in those three places.
   */
  lemma ArrayMultiple(a: string, n: int, b: string)
    requires NoCr(a)
    ensures Append(Fresh, RenderAll([HeaderP(3), SimpleP(a), IntP(n), BulkP(b)]))
            == Fed(Fresh, [Array([Str(a), Integer(n), Str(b)])], false)
  {
    var ps := [HeaderP(3), SimpleP(a), IntP(n), BulkP(b)];
    MultipleUnits(a, n, b);
    Replies(ps, [Array([Str(a), Integer(n), Str(b)])]);
  }

  lemma ComplexUnits(a: string, n: int, b: string, c: string)
    ensures UnitsOf([HeaderP(3), HeaderP(1), SimpleP(a), IntP(n), HeaderP(2), SimpleP(b), BulkP(c)])
            == UnitsAll([Array([Array([Str(a)]), Integer(n), Array([Str(b), Str(c)])])])
  {
    var first := Array([Str(a)]);
    var last := Array([Str(b), Str(c)]);
    var v := Array([first, Integer(n), last]);
    UnitsAllOne(Str(a));
    assert Units(first) == [Header(1), Scalar(Str(a))];
    UnitsAllOne(Str(c));
    UnitsAllCons(Str(b), [Str(c)]);
    assert [Str(b)] + [Str(c)] == last.elements;
    assert Units(last) == [Header(2), Scalar(Str(b)), Scalar(Str(c))];
    UnitsAllOne(last);
    UnitsAllCons(Integer(n), [last]);
    UnitsAllCons(first, [Integer(n), last]);
    assert [Integer(n)] + [last] == [Integer(n), last];
    assert [first] + [Integer(n), last] == v.elements;
    UnitsAllOne(v);
  }

  /**
   * `*3\r\n*1\r\n+foo\r\n:42\r\n*2\r\n+bar\r\n$3\r\nbaz\r\n`, for any
   * values of the same shape: nested arrays close in the right order.
   */
  lemma ArrayComplex(a: string, n: int, b: string, c: string)
    requires NoCr(a) && NoCr(b)
    ensures Append(Fresh, RenderAll([HeaderP(3), HeaderP(1), SimpleP(a), IntP(n), HeaderP(2), SimpleP(b), BulkP(c)]))
            == Fed(Fresh, [Array([Array([Str(a)]), Integer(n), Array([Str(b), Str(c)])])], false)
  {
    var ps := [HeaderP(3), HeaderP(1), SimpleP(a), IntP(n), HeaderP(2), SimpleP(b), BulkP(c)];
    ComplexUnits(a, n, b, c);
    Replies(ps, [Array([Array([Str(a)]), Integer(n), Array([Str(b), Str(c)])])]);
  }

  /** A nested `*-1` is one `null` element of the enclosing array. */
  lemma ArrayInnerNull()
    ensures Append(Fresh, "*1\r\n" + "*-1\r\n") == Fed(Fresh, [Array([Nil])], false)
  {
    var ps := [HeaderP(1), HeaderP(-1)];
    assert RenderAll(ps) == "*1\r\n" + "*-1\r\n" by {
      SmallDecimals();
      RenderAllCons(HeaderP(1), [HeaderP(-1)]);
      RenderAllOne(HeaderP(-1));
    }
    FeedPieces(ps);
    var m1 := OnUnit(Idle, Header(1));
    assert m1 == Placed(Building(Frame([], 1), []), []);
    var m2 := OnUnit(m1.builder, Header(-1));
    assert [] + [Nil] == [Nil];
    assert m2 == Placed(Idle, [Array([Nil])]);
    assert UnitsOf(ps) == [Header(1)] + [Header(-1)];
    FeedUnitsAppend(Idle, [Header(1)], [Header(-1)]);
  }

  /** `*1\r\n+foo\r\n*1\r\n+bar\r\n`, for any two simple strings: two arrays, in order. */
  lemma ArrayPipeline(a: string, b: string)
    requires NoCr(a) && NoCr(b)
    ensures Append(Fresh, RenderAll([HeaderP(1), SimpleP(a), HeaderP(1), SimpleP(b)]))
            == Fed(Fresh, [Array([Str(a)]), Array([Str(b)])], false)
  {
    var ps := [HeaderP(1), SimpleP(a), HeaderP(1), SimpleP(b)];
    var vs := [Array([Str(a)]), Array([Str(b)])];
    assert UnitsOf(ps) == UnitsAll(vs) by {
      UnitsAllOne(Str(a));
      UnitsAllOne(Str(b));
      UnitsAllOne(vs[1]);
      UnitsAllCons(vs[0], [vs[1]]);
      assert [vs[0]] + [vs[1]] == vs;
    }
    Replies(ps, vs);
  }

  /** `3$\r\nfoo\r\n`: a framing fault, nothing emitted, nothing consumed. */
  lemma UnknownType()
    ensures Append(Fresh, "3$\r\nfoo\r\n") == Fed(Parser("3$\r\nfoo\r\n", Idle), [], true)
  {
    var s := "3$\r\nfoo\r\n";
    assert CrlfAt(s, 2);
    assert NoCrlfBefore(s, 2);
    assert FindCrlf(s).Some?;
    UnknownTagFails(s);
    assert Fresh.buffer + s == s;
  }
}

=== FILE: remote_executor.dfy ===
/**
 * The request queue and reconnect supervisor of `RemoteExecutor`
 * (src/RemoteExecutor.php), as a state machine.
 *
 * The source runs `execute` in the caller's fiber and the `run` loop in
 * an event-loop callback; they share the queue, `$running`, `$socket`
 * and `$database` by reference. Here the shared state is one record and
 * every point where either side resumes after a suspension is an event:
 * a caller's `execute` (up to its `await`), the connector delivering a
 * socket, the socket delivering a reply or end of stream, an I/O failure
 * (`RedisException`), any other failure escaping the loop, and a
 * caller's `await` returning. Futures are a map from request ids to
 * their outcome.
 */
module RemoteExecutor {
  import opened Options
  import opened Coercion
  import opened RespValue

  type RequestId = nat

  /** A queue entry: the future (by id) and the stringified arguments. */
  datatype Request = Request(id: RequestId, args: seq<string>)

  datatype Failure =
    | ServerError(message: string)      // a `-` reply, unwrapped into an exception
    | ConnectionError(message: string)  // the `SocketException` of the fail-all path

  /** The state of one `DeferredFuture`. */
  datatype Outcome = Pending | Resolved(value: Value) | Failed(failure: Failure)

  /** One `execute` call: its arguments, its future, and whether its `await` has returned. */
  datatype Call = Call(args: seq<string>, outcome: Outcome, returned: bool)

  /**
   * A `RespSocket`: the database it was opened on, the commands written
   * to it, how many replies were read from it, whether it is referenced,
   * and whether `close` was called.
   */
  datatype Connection = Connection(
    database: int,
    written: seq<seq<string>>,
    answered: nat,
    referenced: bool,
    closed: bool)

  /**
   * Where the run loop is: `Stopped` is `$running === false`,
   * `Connecting` is waiting for the connector (or for the loop callback
   * to start), `Reading` is waiting for `$socket->read()`.
   */
  datatype Loop = Stopped | Connecting | Reading

  datatype Executor = Executor(
    queue: seq<Request>,
    loop: Loop,
    socket: Option<Connection>,
    database: int,
    calls: map<RequestId, Call>,
    nextId: RequestId)

  datatype Event =
    | Execute(query: seq<Arg>, writeFails: bool)  // `execute` up to its `await`
    | Connected                                   // `$connector->connect(...)` returned
    | Read(reply: Option<Value>)                  // `$socket->read()` returned; `None` is end of stream
    | IoFailure                                   // a `RedisException` from a write or a read in the loop
    | FatalFailure(message: string)               // any other throwable escaping the loop, a failed connect included
    | ExecuteReturns(id: RequestId)               // the `await` of call `id` returned or threw

  /** A new executor for the configured database (src/RemoteExecutor.php:22-28). */
  function Init(database: int): Executor {
    Executor([], Stopped, None, database, map[], 0)
  }

  function Running(s: Executor): bool {
    !s.loop.Stopped?
  }

  function ArgsOf(q: seq<Request>): (r: seq<seq<string>>)
    ensures |r| == |q|
    ensures forall i :: 0 <= i < |q| ==> r[i] == q[i].args
  {
    seq(|q|, i requires 0 <= i < |q| => q[i].args)
  }

  function IdsOf(q: seq<Request>): (r: seq<RequestId>)
    ensures |r| == |q|
    ensures forall i :: 0 <= i < |q| ==> r[i] == q[i].id
  {
    seq(|q|, i requires 0 <= i < |q| => q[i].id)
  }

  /** The command name as `execute` compares it: `strtolower($query[0] ?? '')`. */
  function Command(args: seq<string>): string {
    Lower(if |args| > 0 then args[0] else "")
  }

  /** `(int) $query[1]`; a missing argument reads as `null`, which casts to 0. */
  function SelectedDatabase(args: seq<string>): int {
    if |args| > 1 then IntVal(args[1]) else 0
  }

  /** `$deferred->complete($response->unwrap())`: an error reply fails the future instead. */
  function Unwrap(v: Value): Outcome {
    if v.Error? then Failed(ServerError(v.message)) else Resolved(v)
  }

  /** Completes the future of `id`, if there is one. */
  function Complete(calls: map<RequestId, Call>, id: RequestId, o: Outcome): map<RequestId, Call> {
    if id in calls then calls[id := calls[id].(outcome := o)] else calls
  }

  lemma IdsOfTail(q: seq<Request>)
    requires q != []
    ensures IdsOf(q) == [q[0].id] + IdsOf(q[1..])
  {
  }

  /**
   * The fail-all loop: shifts every entry of `q` and errors its future.
   * Exactly the queued futures are errored, with the connection error;
   * every other future is left as it was, and none is added or removed.
   */
  function FailQueued(calls: map<RequestId, Call>, q: seq<Request>, message: string): (r: map<RequestId, Call>)
    ensures r.Keys == calls.Keys
    ensures forall id :: id in calls ==>
              r[id] == if id in IdsOf(q) then calls[id].(outcome := Failed(ConnectionError(message))) else calls[id]
    decreases |q|
  {
    if q == [] then calls
    else
      IdsOfTail(q);
      FailQueued(Complete(calls, q[0].id, Failed(ConnectionError(message))), q[1..], message)
  }

  // ---------------------------------------------------------------------
  // Transitions
  // ---------------------------------------------------------------------

  /**
   * `execute` up to its `await` (src/RemoteExecutor.php:41-50, 64-77):
   * start the loop unless it is running, stringify the arguments, queue
   * the request at the tail, reference the socket and write to it; a
   * failed write drops the socket but keeps the request queued.
   */
  function OnExecute(s: Executor, query: seq<Arg>, writeFails: bool): (t: Executor)
    ensures |t.queue| == |s.queue| + 1 && t.queue[..|s.queue|] == s.queue
    ensures t.queue[|s.queue|].id == s.nextId && t.queue[|s.queue|].args == StrvalAll(query)
    ensures t.calls.Keys == s.calls.Keys + {s.nextId}
    ensures t.calls[s.nextId] == Call(StrvalAll(query), Pending, false)
    ensures forall id :: id in s.calls && id != s.nextId ==> t.calls[id] == s.calls[id]
    ensures t.nextId > s.nextId && t.database == s.database
    ensures writeFails || s.socket.None? ==> t.socket.None?
    ensures s.socket.Some? && !writeFails ==>
              && t.socket.Some?
              && t.socket.value.written == s.socket.value.written + [StrvalAll(query)]
              && t.socket.value.answered == s.socket.value.answered
              && t.socket.value.referenced
  {
    var args := StrvalAll(query);
    var socket :=
      match s.socket
      case None => None
      case Some(c) => if writeFails then None else Some(c.(written := c.written + [args], referenced := true));
    var t := s.(queue := s.queue + [Request(s.nextId, args)],
                loop := if s.loop.Stopped? then Connecting else s.loop,
                socket := socket,
                calls := s.calls[s.nextId := Call(args, Pending, false)],
                nextId := s.nextId + 1);
    assert t.queue[..|s.queue|] == s.queue;
    t
  }

  /**
   * A new socket on the remembered database, unreferenced, then every
   * queued request referenced and written in queue order
   * (src/RemoteExecutor.php:91-98). The replay is one event: no
   * `execute` runs while it writes.
   */
  function OnConnected(s: Executor): (t: Executor)
    ensures t.loop == Reading && t.queue == s.queue && t.calls == s.calls && t.database == s.database
    ensures t.socket.Some? && t.socket.value.database == s.database
    ensures |t.socket.value.written| == |s.queue|
    ensures forall i :: 0 <= i < |s.queue| ==> t.socket.value.written[i] == s.queue[i].args
    ensures t.socket.value.answered == 0 && !t.socket.value.closed
    ensures t.socket.value.referenced <==> s.queue != []
  {
    s.(loop := Reading,
       socket := Some(Connection(s.database, ArgsOf(s.queue), 0, s.queue != [], false)))
  }

  /**
   * The `finally` that clears the socket, and the loop's next round
   * (src/RemoteExecutor.php:113-118): the loop keeps running without a
   * socket, and no request, future or database setting is lost.
   */
  function Reconnect(s: Executor): (t: Executor)
    ensures t.loop == Connecting && t.socket.None?
    ensures t.queue == s.queue && t.calls == s.calls && t.database == s.database && t.nextId == s.nextId
  {
    s.(loop := Connecting, socket := None)
  }

  /**
   * The outer `catch` (src/RemoteExecutor.php:119-128): every queued
   * future is errored with the failure's message, every other future is
   * kept, the queue is emptied and the loop stops.
   */
  function FailAll(s: Executor, message: string): (t: Executor)
    ensures t.queue == [] && !Running(t) && t.socket.None?
    ensures t.database == s.database && t.nextId == s.nextId
    ensures t.calls.Keys == s.calls.Keys
    ensures forall id :: id in s.calls && id in IdsOf(s.queue) ==>
              t.calls[id] == s.calls[id].(outcome := Failed(ConnectionError(message)))
    ensures forall id :: id in s.calls && id !in IdsOf(s.queue) ==> t.calls[id] == s.calls[id]
  {
    s.(queue := [], loop := Stopped, socket := None, calls := FailQueued(s.calls, s.queue, message))
  }

  /**
   * A reply read (src/RemoteExecutor.php:100-111): shift the head,
   * unreference the socket if that emptied the queue, and complete the
   * head's future. Shifting an empty `SplQueue` throws, which only the
   * outer `catch` handles.
   *
   * When `execute` has dropped the socket in the meantime, the loop
   * resolves the head and then reconnects; the source instead calls
   * `unreference` or `read` on `null` (see `OnReadAsWritten`).
   */
  function OnRead(s: Executor, v: Value): (t: Executor)
    ensures s.queue == [] ==> !Running(t) && t.queue == [] && t.calls == s.calls && t.socket.None?
    ensures s.queue != [] ==>
              && t.queue == s.queue[1..]
              && t.calls.Keys == s.calls.Keys
              && (s.queue[0].id in s.calls ==> t.calls[s.queue[0].id] == s.calls[s.queue[0].id].(outcome := Unwrap(v)))
              && (forall id :: id in s.calls && id != s.queue[0].id ==> t.calls[id] == s.calls[id])
    ensures s.queue != [] && s.socket.Some? ==>
              && t.loop == s.loop && t.socket.Some?
              && t.socket.value.written == s.socket.value.written
              && t.socket.value.answered == s.socket.value.answered + 1
              && (|s.queue| == 1 ==> !t.socket.value.referenced)
              && (|s.queue| > 1 ==> t.socket.value.referenced == s.socket.value.referenced)
    ensures s.queue != [] && s.socket.None? ==> t.loop == Connecting && t.socket.None?
    ensures t.database == s.database && t.nextId == s.nextId
  {
    if s.queue == [] then FailAll(s, "Can't shift from an empty datastructure")
    else
      var calls := Complete(s.calls, s.queue[0].id, Unwrap(v));
      match s.socket
      case Some(c) =>
        s.(queue := s.queue[1..],
           socket := Some(c.(answered := c.answered + 1, referenced := if |s.queue| == 1 then false else c.referenced)),
           calls := calls)
      case None =>
        s.(queue := s.queue[1..], loop := Connecting, calls := calls)
  }

  /**
   * The `await` of call `id` returned (src/RemoteExecutor.php:51-59): the
   * `finally` closes the socket after `quit` whatever the outcome, and a
   * successful `select` remembers the new database.
   */
  function OnReturn(s: Executor, id: RequestId): (t: Executor)
    requires id in s.calls
    ensures t.queue == s.queue && t.loop == s.loop && t.nextId == s.nextId
    ensures t.calls.Keys == s.calls.Keys
    ensures t.calls[id] == s.calls[id].(returned := true)
    ensures forall other :: other in s.calls && other != id ==> t.calls[other] == s.calls[other]
    ensures t.database != s.database ==> Command(s.calls[id].args) == "select" && s.calls[id].outcome.Resolved?
    ensures t.socket.Some? <==> s.socket.Some?
    ensures t.socket.Some? && t.socket.value.closed && !s.socket.value.closed ==> Command(s.calls[id].args) == "quit"
  {
    var call := s.calls[id];
    var socket :=
      match s.socket
      case None => None
      case Some(c) => if Command(call.args) == "quit" then Some(c.(closed := true)) else Some(c);
    s.(socket := socket,
       database := if Command(call.args) == "select" && call.outcome.Resolved? then SelectedDatabase(call.args) else s.database,
       calls := s.calls[id := call.(returned := true)])
  }

  predicate CanReturn(s: Executor, id: RequestId) {
    id in s.calls && !s.calls[id].returned && !s.calls[id].outcome.Pending?
  }

  /**
   * The state after event `e`, or `None` when `e` cannot happen in state
   * `s`. A stopped executor only accepts new calls and the return of
   * calls it has settled; replies and I/O failures arrive only while
   * reading; no future is ever forgotten and no request id is reused.
   */
  function Step(s: Executor, e: Event): (r: Option<Executor>)
    ensures e.Execute? ==> r.Some?
    ensures r.Some? && !e.Execute? && !e.ExecuteReturns? ==> Running(s)
    ensures r.Some? && (e.Read? || e.IoFailure?) ==> s.loop.Reading?
    ensures r.Some? && e.Connected? ==> s.loop.Connecting?
    ensures r.Some? ==> s.calls.Keys <= r.value.calls.Keys && s.nextId <= r.value.nextId
  {
    match e
    case Execute(query, writeFails) => Some(OnExecute(s, query, writeFails))
    case Connected => if s.loop.Connecting? then Some(OnConnected(s)) else None
    case Read(reply) =>
      if !s.loop.Reading? then None
      else if reply.None? then Some(Reconnect(s))
      else Some(OnRead(s, reply.value))
    case IoFailure => if s.loop.Reading? then Some(Reconnect(s)) else None
    case FatalFailure(message) => if Running(s) then Some(FailAll(s, message)) else None
    case ExecuteReturns(id) => if CanReturn(s, id) then Some(OnReturn(s, id)) else None
  }

  /** A run of events; `None` once one of them cannot happen. */
  function Run(s: Executor, es: seq<Event>): Option<Executor>
    decreases |es|
  {
    if es == [] then Some(s)
    else match Step(s, es[0])
      case None => None
      case Some(t) => Run(t, es[1..])
  }

  // ---------------------------------------------------------------------
  // The invariant
  // ---------------------------------------------------------------------

  /**
   * The live socket's writes not yet answered are exactly the queued
   * requests, in order, and it is referenced exactly while requests are
   * pending.
   */
  predicate InSync(c: Connection, q: seq<Request>) {
    && c.answered <= |c.written|
    && c.written[c.answered..] == ArgsOf(q)
    && c.referenced == (q != [])
  }

  /** Queued ids are issued, increasing, and belong to calls with the same arguments. */
  predicate QueueWellFormed(s: Executor) {
    && (forall i :: 0 <= i < |s.queue| ==> s.queue[i].id in s.calls && s.calls[s.queue[i].id].args == s.queue[i].args)
    && (forall i, j :: 0 <= i < j < |s.queue| ==> s.queue[i].id < s.queue[j].id)
    && (forall id :: id in s.calls ==> id < s.nextId)
  }

  /** A future is pending exactly while its request is queued, and `await` returns only once it is settled. */
  predicate PendingIsQueued(s: Executor) {
    && (forall id :: id in s.calls ==> (s.calls[id].outcome.Pending? <==> id in IdsOf(s.queue)))
    && (forall id :: id in s.calls && s.calls[id].returned ==> !s.calls[id].outcome.Pending?)
  }

  /**
   * The executor invariant. Under it, a stopped executor has no pending
   * future, every queued request's future is pending, and a live socket
   * has exactly one unanswered write per queued request.
   */
  predicate Inv(s: Executor)
    ensures Inv(s) && !Running(s) ==> forall id :: id in s.calls ==> !s.calls[id].outcome.Pending?
    ensures Inv(s) ==> forall i :: 0 <= i < |s.queue| ==> s.queue[i].id in s.calls && s.calls[s.queue[i].id].outcome.Pending?
    ensures Inv(s) && s.socket.Some? ==> |s.socket.value.written| == s.socket.value.answered + |s.queue|
  {
    && (s.loop.Stopped? ==> s.queue == [])
    && (!s.loop.Reading? ==> s.socket.None?)
    && QueueWellFormed(s)
    && PendingIsQueued(s)
    && (s.socket.Some? ==> InSync(s.socket.value, s.queue))
  }
}

=== FILE: resp_assembly.dfy ===
/**
 * Array assembly of `RespParser::onRespParsed` (lib/RespParser.php:95-137).
 *
 * The source builds nested arrays through PHP references into the array
 * under construction. Here the array under construction is an explicit
 * frame, its suspended ancestors are a stack of frames, and a closed
 * child is appended to its parent when the parent is resumed.
 */
module RespAssembly {
  import opened RespValue
  import opened RespFraming

  /** An array under construction: the elements so far and the count still to come. */
  datatype Frame = Frame(elements: seq<Value>, remaining: int)

  /**
   * `Idle` is `$currentResponse === null`. In `Building`, `top` is the
   * innermost open array with `$currentSize`, and `ancestors` (outermost
   * first) pair `$arrayStack` with `$arraySizes`.
   */
  datatype Builder = Idle | Building(top: Frame, ancestors: seq<Frame>)

  /** The builder after one unit, and what went to the callback. */
  datatype Placed = Placed(builder: Builder, emitted: seq<Value>)

  /** Every open array still expects at least one element. */
  predicate WellFormed(b: Builder) {
    b.Building? ==>
      && b.top.remaining >= 1
      && forall i :: 0 <= i < |b.ancestors| ==> b.ancestors[i].remaining >= 1
  }

  /**
   * The `while (--$this->currentSize === 0)` loop after a child has been
   * placed into an array holding `elements` with count `size` before the
   * decrement: a closed array is emitted when no ancestor is suspended,
   * and otherwise becomes one element of the resumed parent, whose own
   * suspended count is then decremented in turn.
   */
  function Settle(elements: seq<Value>, size: int, ancestors: seq<Frame>): (r: Placed)
    ensures |r.emitted| <= 1
    ensures r.emitted != [] <==> r.builder.Idle?
    ensures size >= 2 ==> r == Placed(Building(Frame(elements, size - 1), ancestors), [])
    ensures size == 1 && ancestors == [] ==> r == Placed(Idle, [Array(elements)])
    decreases |ancestors|
  {
    if size - 1 != 0 then Placed(Building(Frame(elements, size - 1), ancestors), [])
    else if |ancestors| == 0 then Placed(Idle, [Array(elements)])
    else
      var parent := ancestors[|ancestors| - 1];
      Settle(parent.elements + [Array(elements)], parent.remaining, ancestors[..|ancestors| - 1])
  }

  /**
   * One parsed unit. Inside an array, a header with count `k >= 0` opens
   * a child with count `k + 1` (the source's `$payload + 1`, so that the
   * decrement below leaves the child expecting `k`); a negative count is
   * a `null` element. Outside an array, a positive count opens one,
   * `*0` emits `[]`, a negative count emits `null`, and a scalar is
   * emitted as it is.
   */
  function OnUnit(b: Builder, u: Unit): (r: Placed)
    ensures |r.emitted| <= 1
    ensures b.Building? && r.emitted != [] ==> r.builder.Idle?
  {
    match b
    case Building(top, ancestors) =>
      (match u
       case Header(k) =>
         if k >= 0 then Settle([], k + 1, ancestors + [top])
         else Settle(top.elements + [Nil], top.remaining, ancestors)
       case Scalar(v) => Settle(top.elements + [v], top.remaining, ancestors))
    case Idle =>
      match u
      case Header(k) =>
        if k > 0 then Placed(Building(Frame([], k), []), [])
        else if k == 0 then Placed(Idle, [Array([])])
        else Placed(Idle, [Nil])
      case Scalar(v) => Placed(Idle, [v])
  }

  /** Assembly of a sequence of units, collecting the emissions in order. */
  function FeedUnits(b: Builder, us: seq<Unit>): Placed
    decreases |us|
  {
    if us == [] then Placed(b, [])
    else
      var first := OnUnit(b, us[0]);
      var later := FeedUnits(first.builder, us[1..]);
      Placed(later.builder, first.emitted + later.emitted)
  }

  /**
   * Settling never leaves an open array expecting nothing: with at least
   * one slot expected before the decrement, every frame on the result
   * still expects one, and no new ancestor appears.
   */
  lemma {:induction false} SettleWellFormed(elements: seq<Value>, size: int, ancestors: seq<Frame>)
    requires size >= 1
    requires forall i :: 0 <= i < |ancestors| ==> ancestors[i].remaining >= 1
    ensures WellFormed(Settle(elements, size, ancestors).builder)
    ensures var r := Settle(elements, size, ancestors);
            r.builder.Building? ==> |r.builder.ancestors| <= |ancestors|
    decreases |ancestors|
  {
    if size == 1 && |ancestors| > 0 {
      var parent := ancestors[|ancestors| - 1];
      var up := ancestors[..|ancestors| - 1];
      assert forall i :: 0 <= i < |up| ==> up[i].remaining >= 1 by {
        forall i | 0 <= i < |up| ensures up[i].remaining >= 1 {
          assert up[i] == ancestors[i];
        }
      }
      SettleWellFormed(parent.elements + [Array(elements)], parent.remaining, up);
    }
  }

  lemma OnUnitWellFormed(b: Builder, u: Unit)
    requires WellFormed(b)
    ensures WellFormed(OnUnit(b, u).builder)
  {
    match b
    case Building(top, ancestors) =>
      match u {
        case Header(k) =>
          if k >= 0 {
            var up := ancestors + [top];
            assert forall i :: 0 <= i < |up| ==> up[i].remaining >= 1 by {
              forall i | 0 <= i < |up| ensures up[i].remaining >= 1 {
                if i < |ancestors| { assert up[i] == ancestors[i]; }
              }
            }
            SettleWellFormed([], k + 1, up);
          } else {
            SettleWellFormed(top.elements + [Nil], top.remaining, ancestors);
          }
        case Scalar(v) =>
          SettleWellFormed(top.elements + [v], top.remaining, ancestors);
      }
    case Idle =>
  }

  /** Assembly keeps every open array expecting an element, and emits at most one value per unit. */
  lemma {:induction false} FeedUnitsWellFormed(b: Builder, us: seq<Unit>)
    requires WellFormed(b)
    ensures WellFormed(FeedUnits(b, us).builder)
    ensures |FeedUnits(b, us).emitted| <= |us|
    decreases |us|
  {
    if us != [] {
      OnUnitWellFormed(b, us[0]);
      FeedUnitsWellFormed(OnUnit(b, us[0]).builder, us[1..]);
    }
  }

  lemma {:induction false} FeedUnitsAppend(b: Builder, us1: seq<Unit>, us2: seq<Unit>)
    ensures FeedUnits(b, us1 + us2) ==
              var r1 := FeedUnits(b, us1);
              var r2 := FeedUnits(r1.builder, us2);
              Placed(r2.builder, r1.emitted + r2.emitted)
    decreases |us1|
  {
    if us1 == [] {
      assert us1 + us2 == us2;
    } else {
      assert (us1 + us2)[1..] == us1[1..] + us2;
      FeedUnitsAppend(OnUnit(b, us1[0]).builder, us1[1..], us2);
    }
  }

  // ---------------------------------------------------------------------
  // The units of a value, and the assembly theorem.
  // ---------------------------------------------------------------------

  /** The units a value arrives as: an array is its header, then its elements. */
  function Units(v: Value): seq<Unit>
    decreases Size(v), 0
  {
    match v
    case Array(xs) => [Header(|xs|)] + UnitsAll(xs)
    case _ => [Scalar(v)]
  }

  function UnitsAll(xs: seq<Value>): seq<Unit>
    decreases SizeAll(xs), 1
  {
    if xs == [] then [] else Units(xs[0]) + UnitsAll(xs[1..])
  }

  lemma UnitsAllOne(x: Value)
    ensures UnitsAll([x]) == Units(x)
  {
    assert [x][1..] == [];
  }

  lemma UnitsAllCons(x: Value, xs: seq<Value>)
    ensures UnitsAll([x] + xs) == Units(x) + UnitsAll(xs)
  {
    assert ([x] + xs)[1..] == xs;
  }

  /**
   * A value arriving inside an open array occupies exactly one slot of
   * it, however deeply the value itself nests: feeding its units has the
   * same effect as placing it as a single child.
   */
  lemma {:induction false} OneSlot(v: Value, f: Frame, ancestors: seq<Frame>)
    ensures FeedUnits(Building(f, ancestors), Units(v)) ==
              Settle(f.elements + [v], f.remaining, ancestors)
    decreases Size(v), 0
  {
    var b := Building(f, ancestors);
    match v
    case Array(xs) =>
      var start := OnUnit(b, Header(|xs|));
      FeedUnitsAppend(b, [Header(|xs|)], UnitsAll(xs));
      assert FeedUnits(b, [Header(|xs|)]) == start;
      var up := ancestors + [f];
      assert up[..|up| - 1] == ancestors;
      if xs == [] {
        assert UnitsAll(xs) == [];
      } else {
        assert start == Placed(Building(Frame([], |xs|), up), []);
        AllSlots(xs, Frame([], |xs|), up);
        assert [] + xs == xs;
      }
    case _ =>
      assert Units(v) == [Scalar(v)];
  }

  /** Feeding the units of a non-empty list is feeding its head's units, then its tail's. */
  lemma FeedUnitsAllCons(b: Builder, xs: seq<Value>)
    requires xs != []
    ensures FeedUnits(b, UnitsAll(xs)) ==
              var r1 := FeedUnits(b, Units(xs[0]));
              var r2 := FeedUnits(r1.builder, UnitsAll(xs[1..]));
              Placed(r2.builder, r1.emitted + r2.emitted)
  {
    assert UnitsAll(xs) == Units(xs[0]) + UnitsAll(xs[1..]);
    FeedUnitsAppend(b, Units(xs[0]), UnitsAll(xs[1..]));
  }

  /**
   * The elements `xs` arriving into a frame that still expects at least
   * `|xs|` of them take consecutive slots; only the last may close it.
   */
  lemma {:induction false} AllSlots(xs: seq<Value>, g: Frame, ancestors: seq<Frame>)
    requires |xs| >= 1 && g.remaining >= |xs|
    ensures FeedUnits(Building(g, ancestors), UnitsAll(xs)) ==
              Settle(g.elements + xs, g.remaining - |xs| + 1, ancestors)
    decreases SizeAll(xs), 1
  {
    OneSlot(xs[0], g, ancestors);
    FeedUnitsAllCons(Building(g, ancestors), xs);
    if |xs| == 1 {
      var r1 := Settle(g.elements + [xs[0]], g.remaining, ancestors);
      assert UnitsAll(xs[1..]) == [] by { assert xs[1..] == []; }
      assert r1.emitted + [] == r1.emitted;
      assert xs == [xs[0]];
    } else {
      var g' := Frame(g.elements + [xs[0]], g.remaining - 1);
      AllSlots(xs[1..], g', ancestors);
      NextSlot(xs, g, ancestors);
    }
  }

  lemma NextSlot(xs: seq<Value>, g: Frame, ancestors: seq<Frame>)
    requires |xs| >= 2 && g.remaining >= |xs|
    requires FeedUnits(Building(g, ancestors), Units(xs[0])) == Settle(g.elements + [xs[0]], g.remaining, ancestors)
    requires FeedUnits(Building(g, ancestors), UnitsAll(xs)) ==
               var r1 := FeedUnits(Building(g, ancestors), Units(xs[0]));
               var r2 := FeedUnits(r1.builder, UnitsAll(xs[1..]));
               Placed(r2.builder, r1.emitted + r2.emitted)
    requires var g' := Frame(g.elements + [xs[0]], g.remaining - 1);
             FeedUnits(Building(g', ancestors), UnitsAll(xs[1..])) ==
               Settle(g'.elements + xs[1..], g'.remaining - |xs[1..]| + 1, ancestors)
    ensures FeedUnits(Building(g, ancestors), UnitsAll(xs)) ==
              Settle(g.elements + xs, g.remaining - |xs| + 1, ancestors)
  {
    var g' := Frame(g.elements + [xs[0]], g.remaining - 1);
    var r1 := Settle(g.elements + [xs[0]], g.remaining, ancestors);
    assert r1 == Placed(Building(g', ancestors), []);
    assert g'.elements + xs[1..] == g.elements + xs;
    var r2 := FeedUnits(r1.builder, UnitsAll(xs[1..]));
    assert [] + r2.emitted == r2.emitted;
  }

  /**
   * A negative array count is `null` wherever it arrives: at the top
   * level it is emitted as `null`, and inside an array it is placed as a
   * `null` element, exactly as a null scalar would be.
   */
  lemma NegativeHeaderIsNull(b: Builder, k: int)
    requires k < 0
    ensures OnUnit(b, Header(k)) == OnUnit(b, Scalar(Nil))
    ensures b.Idle? ==> OnUnit(b, Header(k)) == Placed(Idle, [Nil])
  {
  }

  /**
   * Outside any array, a value's units emit exactly that value and leave
   * the builder idle. `Units` writes `null` as a null scalar; the
   * negative array count is covered by `NegativeHeaderIsNull`.
   */
  lemma ValueFromIdle(v: Value)
    ensures FeedUnits(Idle, Units(v)) == Placed(Idle, [v])
  {
    match v
    case Array(xs) =>
      FeedUnitsAppend(Idle, [Header(|xs|)], UnitsAll(xs));
      if xs == [] {
        assert UnitsAll(xs) == [];
      } else {
        AllSlots(xs, Frame([], |xs|), []);
        assert [] + xs == xs;
      }
    case _ =>
      assert Units(v) == [Scalar(v)];
  }

  /** Back-to-back replies are emitted separately and in arrival order. */
  lemma {:induction false} PipelinedFromIdle(vs: seq<Value>)
    ensures FeedUnits(Idle, UnitsAll(vs)) == Placed(Idle, vs)
    decreases |vs|
  {
    if vs != [] {
      FeedUnitsAppend(Idle, Units(vs[0]), UnitsAll(vs[1..]));
      ValueFromIdle(vs[0]);
      PipelinedFromIdle(vs[1..]);
      assert [vs[0]] + vs[1..] == vs;
    }
  }

  /**
   * A nested array that closes hands control back to its parent with the
   * parent's suspended count restored, and then decrements it once.
   */
  lemma NestedCloseResumesParent(elements: seq<Value>, parent: Frame, ancestors: seq<Frame>)
    requires parent.remaining >= 2
    ensures Settle(elements, 1, ancestors + [parent]) ==
              Placed(Building(Frame(parent.elements + [Array(elements)], parent.remaining - 1), ancestors), [])
  {
    var up := ancestors + [parent];
    assert up[..|up| - 1] == ancestors;
  }

  /**
   * Nothing is emitted while an array is open unless the outermost one
   * closes, and then the builder is idle again.
   */
  lemma EmitOnlyWhenOutermostCloses(b: Builder, u: Unit)
    requires b.Building?
    ensures var r := OnUnit(b, u);
            r.emitted != [] <==> r.builder.Idle?
  {
  }
}

=== FILE: resp_framing.dfy ===
/**
 * Unit framing of `RespParser::tryParse` (lib/RespParser.php): locating
 * the first CRLF, classifying the tag byte, and cutting one complete
 * unit off the front of the buffer.
 */
module RespFraming {
  import opened Options
  import opened Coercion
  import opened RespValue

  /** What one framed unit contributes to array assembly. */
  datatype Unit =
    | Scalar(value: Value)   // `+`, `-`, `:` and `$` units
    | Header(count: int)     // a `*` line: the declared element count

  datatype Fault =
    | UnknownTag(tag: char)
    | NegativeLength(length: int)

  /** The outcome of one extraction attempt. */
  datatype Attempt =
    | Incomplete                              // wait for more bytes; nothing consumed
    | Malformed(fault: Fault)                 // framing error; nothing consumed
    | Extracted(unit: Unit, rest: string)     // `rest` is what stays buffered

  predicate CrlfAt(s: string, i: int) {
    0 <= i && i + 1 < |s| && s[i] == '\r' && s[i + 1] == '\n'
  }

  predicate NoCrlfBefore(s: string, k: int) {
    forall j :: 0 <= j < k ==> !CrlfAt(s, j)
  }

  function FindCrlfFrom(s: string, from: nat): (r: Option<nat>)
    requires NoCrlfBefore(s, from)
    ensures r.Some? ==> CrlfAt(s, r.value) && NoCrlfBefore(s, r.value)
    ensures r.None? ==> NoCrlfBefore(s, |s|)
    decreases |s| - from
  {
    if from + 1 >= |s| then None
    else if CrlfAt(s, from) then Some(from)
    else FindCrlfFrom(s, from + 1)
  }

  /** `strpos($buffer, "\r\n")`: the first CRLF, if any. */
  function FindCrlf(s: string): (r: Option<nat>)
    ensures r.Some? ==> CrlfAt(s, r.value) && NoCrlfBefore(s, r.value)
    ensures r.None? ==> NoCrlfBefore(s, |s|)
  {
    FindCrlfFrom(s, 0)
  }

  predicate IsLineTag(c: char) {
    c == '+' || c == '-' || c == ':' || c == '*'
  }

  /** Payload conversion of a line unit (lib/RespParser.php:76-88). */
  function LineUnit(tag: char, line: string): Unit
    requires IsLineTag(tag)
  {
    if tag == '+' then Scalar(Str(line))
    else if tag == '-' then Scalar(Error(line))
    else if tag == ':' then Scalar(Integer(IntVal(line)))
    else Header(IntVal(line))
  }

  /**
   * The declared length of a bulk string whose header line ends at
   * `pos`: `(int) substr($buffer, 1, $pos)`, which includes the CR.
   */
  function BulkLength(buf: string, pos: nat): int
    requires 1 <= pos < |buf|
  {
    IntVal(buf[1..pos + 1])
  }

  /**
   * One extraction attempt. Lengths below -1 are reported as a fault;
   * the source does not check them (see `TryParseAsWritten`).
   */
  function TryParse(buf: string): (r: Attempt)
    ensures r.Extracted? ==> |r.rest| < |buf|
  {
    if |buf| == 0 then Incomplete
    else
      match FindCrlf(buf)
      case None => Incomplete
      case Some(pos) =>
        var tag := buf[0];
        if IsLineTag(tag) then
          Extracted(LineUnit(tag, buf[1..pos]), buf[pos + 2..])
        else if tag == '$' then
          var len := BulkLength(buf, pos);
          if len == -1 then Extracted(Scalar(Nil), buf[pos + 2..])
          else if len < -1 then Malformed(NegativeLength(len))
          else if |buf| < pos + len + 4 then Incomplete
          else Extracted(Scalar(Str(buf[pos + 2..pos + 2 + len])), buf[pos + len + 4..])
        else Malformed(UnknownTag(tag))
  }

  // ---------------------------------------------------------------------
  // Consumption: an extraction removes exactly the unit's bytes.
  // ---------------------------------------------------------------------

  /** What stays buffered after an extraction is a proper suffix of the buffer. */
  lemma ExtractedLeavesSuffix(buf: string)
    requires TryParse(buf).Extracted?
    ensures var rest := TryParse(buf).rest;
            |rest| < |buf| && rest == buf[|buf| - |rest|..]
  {
  }

  /** Until a CRLF is buffered nothing is extracted and nothing fails. */
  lemma WaitsForCrlf(buf: string)
    requires NoCrlfBefore(buf, |buf|)
    ensures TryParse(buf) == Incomplete
  {
  }

  /** Once a CRLF is buffered, a tag outside `+ - : $ *` is a framing fault. */
  lemma UnknownTagFails(buf: string)
    requires buf != [] && FindCrlf(buf).Some?
    requires !IsLineTag(buf[0]) && buf[0] != '$'
    ensures TryParse(buf) == Malformed(UnknownTag(buf[0]))
  {
  }

  /**
   * A line unit removes its tag, its payload and the CRLF (`$pos + 2`
   * bytes); the payload is the text strictly between tag and CRLF.
   */
  lemma LineUnitConsumption(buf: string)
    requires buf != [] && IsLineTag(buf[0]) && FindCrlf(buf).Some?
    ensures var pos := FindCrlf(buf).value;
            TryParse(buf) == Extracted(LineUnit(buf[0], buf[1..pos]), buf[pos + 2..])
            && |buf| - |TryParse(buf).rest| == pos + 2
  {
  }

  /**
   * A bulk string of declared length `len >= 0` is extracted only once
   * `pos + len + 4` bytes are buffered; it then removes exactly that many
   * bytes and its payload is the `len` bytes after the length line.
   * `$-1` removes only its length line.
   */
  lemma BulkConsumption(buf: string)
    requires buf != [] && buf[0] == '$' && FindCrlf(buf).Some?
    ensures var pos := FindCrlf(buf).value;
            var len := BulkLength(buf, pos);
            && (len == -1 ==> TryParse(buf) == Extracted(Scalar(Nil), buf[pos + 2..]))
            && (len >= 0 && |buf| < pos + len + 4 ==> TryParse(buf) == Incomplete)
            && (len >= 0 && |buf| >= pos + len + 4 ==>
                  && TryParse(buf) == Extracted(Scalar(Str(buf[pos + 2..pos + 2 + len])), buf[pos + len + 4..])
                  && |buf| - |TryParse(buf).rest| == pos + len + 4
                  && |TryParse(buf).unit.value.bytes| == len)
  {
  }

  // ---------------------------------------------------------------------
  // Prefix stability: more input never changes a decided step.
  // ---------------------------------------------------------------------

  lemma {:induction false} FindCrlfFromExtends(s: string, more: string, from: nat)
    requires NoCrlfBefore(s, from)
    requires FindCrlfFrom(s, from).Some?
    ensures NoCrlfBefore(s + more, from)
    ensures FindCrlfFrom(s + more, from) == FindCrlfFrom(s, from)
    decreases |s| - from
  {
    var t := s + more;
    assert forall j :: 0 <= j < from ==> CrlfAt(t, j) == CrlfAt(s, j) by {
      forall j | 0 <= j < from
        ensures CrlfAt(t, j) == CrlfAt(s, j)
      {
        assert j + 1 < |s| by { assert CrlfAt(s, FindCrlfFrom(s, from).value); }
      }
    }
    assert CrlfAt(t, from) == CrlfAt(s, from);
    if !CrlfAt(s, from) {
      FindCrlfFromExtends(s, more, from + 1);
    }
  }

  lemma FindCrlfExtends(s: string, more: string)
    requires FindCrlf(s).Some?
    ensures FindCrlf(s + more) == FindCrlf(s)
  {
    FindCrlfFromExtends(s, more, 0);
  }

  /**
   * Once a step is decided, appending bytes leaves it decided the same
   * way: the same unit with the new bytes behind the old rest, or the
   * same fault.
   */
  lemma TryParseExtends(buf: string, more: string)
    requires !TryParse(buf).Incomplete?
    ensures TryParse(buf + more) ==
              match TryParse(buf)
              case Extracted(u, rest) => Extracted(u, rest + more)
              case other => other
  {
    var t := buf + more;
    FindCrlfExtends(buf, more);
    var pos := FindCrlf(buf).value;
    assert t[0] == buf[0];
    if pos >= 1 {
      assert t[1..pos] == buf[1..pos];
      assert t[1..pos + 1] == buf[1..pos + 1];
    }
    assert t[pos + 2..] == buf[pos + 2..] + more;
    if buf[0] == '$' {
      var len := BulkLength(buf, pos);
      if len >= 0 {
        assert t[pos + 2..pos + 2 + len] == buf[pos + 2..pos + 2 + len];
        assert t[pos + len + 4..] == buf[pos + len + 4..] + more;
      }
    }
  }

  // ---------------------------------------------------------------------
  // Canonical unit encodings, and their framing.
  // ---------------------------------------------------------------------

  predicate NoCr(s: string) {
    forall i :: 0 <= i < |s| ==> s[i] != '\r'
  }

  /** A line unit on the wire: tag, text, CRLF. */
  function Line(tag: char, text: string): string {
    [tag] + text + "\r\n"
  }

  /** A bulk string on the wire: `$<len>\r\n<bytes>\r\n`. */
  function Bulk(bytes: string): string {
    "$" + Decimal(|bytes|) + "\r\n" + bytes + "\r\n"
  }

  const NullBulk: string := "$-1\r\n"

  lemma NoCrDigits(n: nat)
    ensures NoCr(Digits(n))
  {
  }

  lemma NoCrDecimal(n: int)
    ensures NoCr(Decimal(n))
  {
    if n < 0 { NoCrDigits(-n); } else { NoCrDigits(n); }
  }

  lemma FirstCrlfOfLine(tag: char, text: string, rest: string)
    requires tag != '\r' && NoCr(text)
    ensures FindCrlf(Line(tag, text) + rest) == Some(|text| + 1)
  {
    var s := Line(tag, text) + rest;
    var k := |text| + 1;
    assert CrlfAt(s, k);
    assert forall j :: 0 <= j < k ==> s[j] != '\r';
    assert NoCrlfBefore(s, k);
  }

  /** A line unit followed by anything frames as exactly that unit. */
  lemma LineFraming(tag: char, text: string, rest: string)
    requires IsLineTag(tag) && NoCr(text)
    ensures TryParse(Line(tag, text) + rest) == Extracted(LineUnit(tag, text), rest)
  {
    var s := Line(tag, text) + rest;
    FirstCrlfOfLine(tag, text, rest);
    var pos := |text| + 1;
    assert s[1..pos] == text;
    assert s[pos + 2..] == rest;
  }

  /** A bulk string followed by anything frames as exactly that string. */
  lemma BulkFraming(bytes: string, rest: string)
    ensures TryParse(Bulk(bytes) + rest) == Extracted(Scalar(Str(bytes)), rest)
  {
    var d := Decimal(|bytes|);
    var s := Bulk(bytes) + rest;
    NoCrDecimal(|bytes|);
    assert s == Line('$', d) + (bytes + "\r\n" + rest);
    FirstCrlfOfLine('$', d, bytes + "\r\n" + rest);
    var pos := |d| + 1;
    assert s[1..pos + 1] == d + "\r";
    IntValOfDecimal(|bytes|, "\r");
    assert s[pos + 2..pos + 2 + |bytes|] == bytes;
    assert s[pos + |bytes| + 4..] == rest;
  }

  lemma NullBulkFraming(rest: string)
    ensures TryParse(NullBulk + rest) == Extracted(Scalar(Nil), rest)
  {
    var s := NullBulk + rest;
    assert NullBulk == Line('$', "-1");
    FirstCrlfOfLine('$', "-1", rest);
    assert s[1..4] == Decimal(-1) + "\r";
    IntValOfDecimal(-1, "\r");
    assert s[5..] == rest;
  }

  // ---------------------------------------------------------------------
  // The bulk branch exactly as written, with PHP `substr` semantics.
  // ---------------------------------------------------------------------

  /**
   * PHP 8 `substr($s, $start, $length)`, `length` absent when `None`:
   * a negative start counts from the end, a negative length leaves that
   * many bytes off the end, and out-of-range requests give "".
   */
  function PhpSubstr(s: string, start: int, length: Option<int>): (r: string)
    ensures |r| <= |s|
    ensures start >= |s| ==> r == []
    ensures 0 <= start <= |s| && length.None? ==> r == s[start..]
    ensures -|s| <= start < 0 && length.None? ==> r == s[|s| + start..]
    ensures 0 <= start && length.Some? && 0 <= length.value <= |s| - start ==> r == s[start..start + length.value]
    ensures 0 <= start <= |s| && length.Some? && length.value < 0 ==>
              r == [] || (start <= |s| + length.value && r + s[|s| + length.value..] == s[start..])
  {
    var n := |s|;
    if start > n then ""
    else
      var f := if start >= 0 then start else if -start > n then 0 else n + start;
      match length
      case None => s[f..]
      case Some(l) =>
        if l < 0 then (if -l > n - f then "" else s[f..n + l])
        else if l > n - f then s[f..]
        else s[f..f + l]
  }

  /**
   * `tryParse` with the bulk branch as written (lib/RespParser.php:51-74):
   * a declared length below -1 is not rejected; the payload and the
   * number of removed bytes go through `substr` with negative arguments.
   */
  function TryParseAsWritten(buf: string): (r: Attempt)
    ensures (buf == [] || buf[0] != '$' || FindCrlf(buf).None?
             || BulkLength(buf, FindCrlf(buf).value) >= -1) ==> r == TryParse(buf)
    ensures r.Malformed? ==> r.fault.UnknownTag?
  {
    if buf != [] && buf[0] == '$' && FindCrlf(buf).Some?
       && BulkLength(buf, FindCrlf(buf).value) < -1 then
      var pos := FindCrlf(buf).value;
      var len := BulkLength(buf, pos);
      if |buf| < pos + len + 4 then Incomplete
      else
        Extracted(Scalar(Str(PhpSubstr(buf, pos + 2, Some(len)))),
                  PhpSubstr(buf, pos + len + 4, None))
    else TryParse(buf)
  }

  /**
   * `$-7\r\n`: as written, `tryParse` reports success, emits an empty
   * string, and leaves the buffer exactly as it was, so `append`'s loop
   * never ends.
   */
  lemma AsWrittenBulkMakesNoProgress()
    ensures TryParseAsWritten("$-7\r\n") == Extracted(Scalar(Str("")), "$-7\r\n")
  {
    var s := "$-7\r\n";
    assert s == Line('$', "-7");
    FirstCrlfOfLine('$', "-7", "");
    assert s[1..4] == Decimal(-7) + "\r";
    IntValOfDecimal(-7, "\r");
  }

  /**
   * Other lengths below -1 are consumed, but mis-framed: `$-2\r\n` emits
   * an empty string where it should fail.
   */
  lemma AsWrittenBulkEmitsEmpty()
    ensures TryParseAsWritten("$-2\r\n") == Extracted(Scalar(Str("")), "")
  {
    var a := "$-2\r\n";
    assert a == Line('$', "-2");
    FirstCrlfOfLine('$', "-2", "");
    assert a[1..4] == Decimal(-2) + "\r";
    IntValOfDecimal(-2, "\r");
  }

  /**
   * `$-3` cuts a string out of the next reply's bytes and leaves a stray
   * LF, which then faults.
   */
  lemma AsWrittenBulkMisframes()
    ensures TryParseAsWritten("$-3\r\n+OK\r\n") == Extracted(Scalar(Str("+O")), "\n+OK\r\n")
  {
    var b := "$-3\r\n+OK\r\n";
    assert b == Line('$', "-3") + "+OK\r\n";
    FirstCrlfOfLine('$', "-3", "+OK\r\n");
    assert b[1..4] == Decimal(-3) + "\r";
    IntValOfDecimal(-3, "\r");
    assert b[5..7] == "+O";
    assert b[4..] == "\n+OK\r\n";
  }

  /**
   * The corrected step always makes progress when it extracts, and
   * rejects the same input instead of looping on it.
   */
  lemma CorrectedBulkRejectsNegativeLength()
    ensures TryParse("$-7\r\n") == Malformed(NegativeLength(-7))
  {
    var s := "$-7\r\n";
    assert s == Line('$', "-7");
    FirstCrlfOfLine('$', "-7", "");
    assert s[1..4] == Decimal(-7) + "\r";
    IntValOfDecimal(-7, "\r");
  }
}

=== FILE: resp_parser.dfy ===
/**
 * The incremental decoder `RespParser` (lib/RespParser.php): `append`
 * concatenates input to the buffer and extracts units until none is
 * complete; `reset` discards all buffered and partial state. The
 * callback is modelled as the sequence of values it is called with.
 */
module RespParser {
  import opened Coercion
  import opened RespValue
  import opened RespFraming
  import opened RespAssembly

  datatype Parser = Parser(buffer: string, builder: Builder)

  /**
   * The result of one `append`: the parser afterwards, the values passed
   * to the callback in order, and whether the call ended with a
   * `ParserException` (the offending bytes stay buffered).
   */
  datatype Fed = Fed(parser: Parser, emitted: seq<Value>, failed: bool)

  /** A freshly constructed parser. */
  const Fresh: Parser := Parser([], Idle)

  /** `reset()`: empty buffer, no array under construction. */
  function Reset(p: Parser): (r: Parser)
    ensures r.buffer == [] && r.builder.Idle?
  {
    Fresh
  }

  /**
   * `while ($this->tryParse()) ;` — each extracted unit is consumed and
   * then assembled; the loop stops at the first incomplete step, or
   * fails at a framing fault without consuming it. What stays buffered
   * holds no complete unit at its front unless that unit is malformed.
   */
  function Drain(p: Parser): (r: Fed)
    ensures !r.failed ==> TryParse(r.parser.buffer).Incomplete?
    ensures r.failed ==> TryParse(r.parser.buffer).Malformed?
    ensures |r.parser.buffer| <= |p.buffer|
    decreases |p.buffer|
  {
    match TryParse(p.buffer)
    case Incomplete => Fed(p, [], false)
    case Malformed(_) => Fed(p, [], true)
    case Extracted(u, rest) =>
      var placed := OnUnit(p.builder, u);
      var later := Drain(Parser(rest, placed.builder));
      Fed(later.parser, placed.emitted + later.emitted, later.failed)
  }

  /** What `append` leaves buffered is the tail of what it was given. */
  lemma {:induction false} DrainLeavesSuffix(p: Parser)
    ensures var b := Drain(p).parser.buffer;
            b == p.buffer[|p.buffer| - |b|..]
    decreases |p.buffer|
  {
    match TryParse(p.buffer)
    case Incomplete =>
    case Malformed(_) =>
    case Extracted(u, rest) =>
      ExtractedLeavesSuffix(p.buffer);
      var q := Parser(rest, OnUnit(p.builder, u).builder);
      DrainLeavesSuffix(q);
      var b := Drain(q).parser.buffer;
      assert b == rest[|rest| - |b|..];
  }

  /** `append` keeps every open array still expecting an element. */
  lemma {:induction false} DrainKeepsWellFormed(p: Parser)
    requires WellFormed(p.builder)
    ensures WellFormed(Drain(p).parser.builder)
    decreases |p.buffer|
  {
    match TryParse(p.buffer)
    case Incomplete =>
    case Malformed(_) =>
    case Extracted(u, rest) =>
      OnUnitWellFormed(p.builder, u);
      DrainKeepsWellFormed(Parser(rest, OnUnit(p.builder, u).builder));
  }

  /**
   * `append($str)`: it returns only once the buffered bytes hold no
   * complete unit, or a malformed one at their front, and what stays
   * buffered is never more than the old buffer and `s` together.
   */
  function Append(p: Parser, s: string): (r: Fed)
    ensures !r.failed ==> TryParse(r.parser.buffer).Incomplete?
    ensures r.failed ==> TryParse(r.parser.buffer).Malformed?
    ensures |r.parser.buffer| <= |p.buffer| + |s|
  {
    Drain(Parser(p.buffer + s, p.builder))
  }

  // ---------------------------------------------------------------------
  // Incomplete input.
  // ---------------------------------------------------------------------

  /**
   * Without a CRLF in the buffer, or with a bulk body still short of
   * `pos + len + 4` bytes, `append` emits nothing and keeps every byte.
   */
  lemma IncompleteKeepsEverything(p: Parser, s: string)
    requires TryParse(p.buffer + s).Incomplete?
    ensures Append(p, s) == Fed(Parser(p.buffer + s, p.builder), [], false)
  {
  }

  // ---------------------------------------------------------------------
  // Fragmentation invariance.
  // ---------------------------------------------------------------------

  /**
   * Draining a buffer with more bytes behind it is draining the buffer,
   * then draining what is left together with the new bytes; a fault
   * stays a fault.
   */
  predicate DrainsInTwo(p: Parser, more: string) {
    Drain(Parser(p.buffer + more, p.builder)) ==
      var d1 := Drain(p);
      var q := Parser(d1.parser.buffer + more, d1.parser.builder);
      if d1.failed then Fed(q, d1.emitted, true)
      else
        var d2 := Drain(q);
        Fed(d2.parser, d1.emitted + d2.emitted, d2.failed)
  }

  lemma DrainsInTwoUndecided(p: Parser, more: string)
    requires !TryParse(p.buffer).Extracted?
    ensures DrainsInTwo(p, more)
  {
    var t := Parser(p.buffer + more, p.builder);
    if TryParse(p.buffer).Incomplete? {
      assert [] + Drain(t).emitted == Drain(t).emitted;
    } else {
      TryParseExtends(p.buffer, more);
    }
  }

  /** One extraction step, given the claim for what follows it. */
  lemma DrainsInTwoStep(p: Parser, more: string)
    requires TryParse(p.buffer).Extracted?
    requires var step := TryParse(p.buffer);
             DrainsInTwo(Parser(step.rest, OnUnit(p.builder, step.unit).builder), more)
    ensures DrainsInTwo(p, more)
  {
    var step := TryParse(p.buffer);
    TryParseExtends(p.buffer, more);
    var placed := OnUnit(p.builder, step.unit);
    var d1 := Drain(Parser(step.rest, placed.builder));
    if !d1.failed {
      var d2 := Drain(Parser(d1.parser.buffer + more, d1.parser.builder));
      assert placed.emitted + (d1.emitted + d2.emitted) == (placed.emitted + d1.emitted) + d2.emitted;
    }
  }

  lemma {:induction false} DrainExtends(p: Parser, more: string)
    ensures DrainsInTwo(p, more)
    decreases |p.buffer|
  {
    var step := TryParse(p.buffer);
    if step.Extracted? {
      DrainExtends(Parser(step.rest, OnUnit(p.builder, step.unit).builder), more);
      DrainsInTwoStep(p, more);
    } else {
      DrainsInTwoUndecided(p, more);
    }
  }

  /**
   * Splitting input across two `append` calls emits the same values in
   * the same order, ends in the same state, and fails exactly when the
   * single call would.
   */
  lemma AppendSplit(p: Parser, x: string, y: string)
    ensures Append(p, x + y) ==
              var a1 := Append(p, x);
              var a2 := Append(a1.parser, y);
              Fed(a2.parser, a1.emitted + a2.emitted, a2.failed)
  {
    var q := Parser(p.buffer + x, p.builder);
    assert p.buffer + (x + y) == q.buffer + y;
    DrainExtends(q, y);
    var a1 := Drain(q);
    if a1.failed {
      FaultPersists(q, y);
      assert a1.emitted + [] == a1.emitted;
    }
  }

  /** A fault at the front of the buffer is still there after more bytes arrive. */
  lemma FaultPersists(p: Parser, more: string)
    requires Drain(p).failed
    ensures var d := Drain(p);
            var q := Parser(d.parser.buffer + more, d.parser.builder);
            Drain(q) == Fed(q, [], true)
  {
    var d := Drain(p);
    TryParseExtends(d.parser.buffer, more);
  }

  /** Appending a sequence of fragments one `append` call at a time. */
  function AppendAll(p: Parser, chunks: seq<string>): Fed
    decreases |chunks|
  {
    if chunks == [] then Fed(p, [], false)
    else
      var first := Append(p, chunks[0]);
      var later := AppendAll(first.parser, chunks[1..]);
      Fed(later.parser, first.emitted + later.emitted, if |chunks| == 1 then first.failed else later.failed)
  }

  function Concat(chunks: seq<string>): string
    decreases |chunks|
  {
    if chunks == [] then [] else chunks[0] + Concat(chunks[1..])
  }

  /**
   * Fragmentation invariance: however the input is cut into fragments,
   * feeding them one by one emits the same values as feeding their
   * concatenation at once, and ends in the same state.
   */
  lemma {:induction false} FragmentationInvariance(p: Parser, chunks: seq<string>)
    requires chunks != []
    ensures AppendAll(p, chunks) == Append(p, Concat(chunks))
    decreases |chunks|
  {
    if |chunks| > 1 {
      var first := Append(p, chunks[0]);
      FragmentationInvariance(first.parser, chunks[1..]);
      AppendSplit(p, chunks[0], Concat(chunks[1..]));
    } else {
      assert Concat(chunks) == chunks[0] + [];
      assert chunks[0] + [] == chunks[0];
      assert Append(p, chunks[0]).emitted + [] == Append(p, chunks[0]).emitted;
    }
  }

  // ---------------------------------------------------------------------
  // Tokenized input and the wire round trip.
  // ---------------------------------------------------------------------

  /** `buf` frames as exactly the units `us`, leaving `rest`. */
  predicate Tokenizes(buf: string, us: seq<Unit>, rest: string)
    decreases |us|
  {
    if us == [] then buf == rest
    else
      var step := TryParse(buf);
      step.Extracted? && step.unit == us[0] && Tokenizes(step.rest, us[1..], rest)
  }

  lemma {:induction false} TokenizesChain(a: string, us1: seq<Unit>, b: string, us2: seq<Unit>, c: string)
    requires Tokenizes(a, us1, b) && Tokenizes(b, us2, c)
    ensures Tokenizes(a, us1 + us2, c)
    decreases |us1|
  {
    if us1 == [] {
      assert us1 + us2 == us2;
    } else {
      var step := TryParse(a);
      assert step.Extracted? && step.unit == us1[0] && Tokenizes(step.rest, us1[1..], b);
      var us := us1 + us2;
      assert us != [] && us[0] == us1[0] && us[1..] == us1[1..] + us2;
      TokenizesChain(step.rest, us1[1..], b, us2, c);
    }
  }

  /** Draining tokenized input assembles its units, then drains what is left. */
  lemma {:induction false} DrainTokenized(buf: string, us: seq<Unit>, rest: string, b: Builder)
    requires Tokenizes(buf, us, rest)
    ensures Drain(Parser(buf, b)) ==
              var m := FeedUnits(b, us);
              var d := Drain(Parser(rest, m.builder));
              Fed(d.parser, m.emitted + d.emitted, d.failed)
    decreases |us|
  {
    if us == [] {
      assert [] + Drain(Parser(buf, b)).emitted == Drain(Parser(buf, b)).emitted;
    } else {
      var step := TryParse(buf);
      var placed := OnUnit(b, us[0]);
      DrainTokenized(step.rest, us[1..], rest, placed.builder);
      var m := FeedUnits(placed.builder, us[1..]);
      var d := Drain(Parser(rest, m.builder));
      assert placed.emitted + (m.emitted + d.emitted) == (placed.emitted + m.emitted) + d.emitted;
    }
  }

  /** Error texts travel on a `-` line, which cannot hold a CR. */
  predicate Encodable(v: Value)
    decreases Size(v), 0
  {
    match v
    case Error(m) => NoCr(m)
    case Array(xs) => EncodableAll(xs)
    case _ => true
  }

  predicate EncodableAll(xs: seq<Value>)
    decreases SizeAll(xs), 1
  {
    xs == [] || (Encodable(xs[0]) && EncodableAll(xs[1..]))
  }

  /**
   * The canonical wire form of a reply: integers as `:` lines, strings as
   * bulk strings, `null` as `$-1`, errors as `-` lines, arrays as a `*`
   * count followed by their elements.
   */
  function Encode(v: Value): string
    decreases Size(v), 0
  {
    match v
    case Nil => NullBulk
    case Integer(n) => Line(':', Decimal(n))
    case Str(s) => Bulk(s)
    case Error(m) => Line('-', m)
    case Array(xs) => Line('*', Decimal(|xs|)) + EncodeAll(xs)
  }

  function EncodeAll(xs: seq<Value>): string
    decreases SizeAll(xs), 1
  {
    if xs == [] then [] else Encode(xs[0]) + EncodeAll(xs[1..])
  }

  lemma TokenizesOne(buf: string, u: Unit, rest: string)
    requires TryParse(buf) == Extracted(u, rest)
    ensures Tokenizes(buf, [u], rest)
  {
    assert [u][1..] == [];
  }

  lemma ScalarTokenizes(v: Value, rest: string)
    requires Encodable(v) && !v.Array?
    ensures Tokenizes(Encode(v) + rest, Units(v), rest)
  {
    assert Units(v) == [Scalar(v)];
    match v {
      case Nil =>
        NullBulkFraming(rest);
      case Integer(n) =>
        NoCrDecimal(n);
        LineFraming(':', Decimal(n), rest);
        IntValOfDecimal(n, []);
        assert Decimal(n) + [] == Decimal(n);
      case Str(s) =>
        BulkFraming(s, rest);
      case Error(m) =>
        LineFraming('-', m, rest);
    }
    TokenizesOne(Encode(v) + rest, Scalar(v), rest);
  }

  lemma HeaderTokenizes(n: nat, rest: string)
    ensures Tokenizes(Line('*', Decimal(n)) + rest, [Header(n)], rest)
  {
    NoCrDecimal(n);
    LineFraming('*', Decimal(n), rest);
    IntValOfDecimal(n, []);
    assert Decimal(n) + [] == Decimal(n);
    TokenizesOne(Line('*', Decimal(n)) + rest, Header(n), rest);
  }

  lemma {:induction false} EncodeTokenizes(v: Value, rest: string)
    requires Encodable(v)
    ensures Tokenizes(Encode(v) + rest, Units(v), rest)
    decreases Size(v), 0
  {
    if v.Array? {
      var xs := v.elements;
      var tail := EncodeAll(xs) + rest;
      assert Encode(v) + rest == Line('*', Decimal(|xs|)) + tail;
      HeaderTokenizes(|xs|, tail);
      EncodeAllTokenizes(xs, rest);
      TokenizesChain(Encode(v) + rest, [Header(|xs|)], tail, UnitsAll(xs), rest);
    } else {
      ScalarTokenizes(v, rest);
    }
  }

  lemma {:induction false} EncodeAllTokenizes(xs: seq<Value>, rest: string)
    requires EncodableAll(xs)
    ensures Tokenizes(EncodeAll(xs) + rest, UnitsAll(xs), rest)
    decreases SizeAll(xs), 1
  {
    if xs == [] {
      assert EncodeAll(xs) + rest == rest;
    } else {
      var tail := EncodeAll(xs[1..]) + rest;
      var buf := EncodeAll(xs) + rest;
      assert buf == Encode(xs[0]) + tail;
      EncodeTokenizes(xs[0], tail);
      EncodeAllTokenizes(xs[1..], rest);
      TokenizesChain(buf, Units(xs[0]), tail, UnitsAll(xs[1..]), rest);
    }
  }

  /**
   * Round trip: a fresh parser fed the wire form of a reply emits exactly
   * that reply, once, and is fresh again afterwards.
   */
  lemma RoundTrip(v: Value)
    requires Encodable(v)
    ensures Append(Fresh, Encode(v)) == Fed(Fresh, [v], false)
  {
    assert EncodableAll([v]) by { assert [v][1..] == []; }
    assert EncodeAll([v]) == Encode(v) by { assert [v][1..] == []; }
    Pipelined([v]);
  }

  /**
   * Pipelining: the wire forms of several replies sent back to back are
   * each emitted separately, in arrival order.
   */
  lemma Pipelined(vs: seq<Value>)
    requires EncodableAll(vs)
    ensures Append(Fresh, EncodeAll(vs)) == Fed(Fresh, vs, false)
  {
    EncodeAllTokenizes(vs, []);
    assert EncodeAll(vs) + [] == EncodeAll(vs);
    assert Fresh.buffer + EncodeAll(vs) == EncodeAll(vs);
    DrainTokenized(EncodeAll(vs), UnitsAll(vs), [], Idle);
    PipelinedFromIdle(vs);
    assert vs + [] == vs;
  }

  /**
   * `reset` forgets any partial reply: whatever was buffered or half
   * assembled before, a complete reply afterwards is emitted exactly.
   */
  lemma ResetForgetsPartialReply(p: Parser, v: Value)
    requires Encodable(v)
    ensures Append(Reset(p), Encode(v)) == Fed(Fresh, [v], false)
  {
    RoundTrip(v);
  }

  /**
   * After `reset`, nothing of the parser's past survives: whatever two
   * parsers had buffered or half-assembled, the same input gives the same
   * callbacks, state and failure as on a new parser.
   */
  lemma ResetDiscardsState(p: Parser, q: Parser, s: string)
    ensures Append(Reset(p), s) == Append(Reset(q), s) == Append(Fresh, s)
  {
  }
}

=== FILE: resp_value.dfy ===
/**
 * The values the RESP (version 2) decoder hands to its callback.
 */
module RespValue {

  /**
   * A decoded reply. `Nil` is PHP `null`, produced both by the null bulk
   * string `$-1` and by the null array `*-1`; an empty array is
   * `Array([])`, distinct from `Nil`. `Error` carries the text of a `-`
   * line, which the source wraps in an exception object.
   */
  datatype Value =
    | Nil
    | Integer(n: int)
    | Str(bytes: string)
    | Error(message: string)
    | Array(elements: seq<Value>)

  /** Number of constructors in a value, a termination measure. */
  function Size(v: Value): (n: nat)
    ensures n >= 1
  {
    match v
    case Array(xs) => 1 + SizeAll(xs)
    case _ => 1
  }

  function SizeAll(xs: seq<Value>): nat {
    if xs == [] then 0 else Size(xs[0]) + SizeAll(xs[1..])
  }
}
